=== FILE: README.md ===
# Decision card generator, modelled in Dafny

This project models the core of a decision-card video generator (`app.py`).
A user describes a decision: a category, a question, a description, and up to
five choices, each with pros and cons typed one per line. The application
draws one card per choice and places up to three cards on a video timeline.
It can also save the form under its question title and offers saved entries
for loading; as written, loading a saved entry fails (see "## Findings").

The model covers:

- **Text** (`text.dfy`): the Python string operations the card code relies
  on. These are whitespace `split()`, `strip()`, `split('\n')` and
  `"\n".join`. On top of them sits the pros/cons parser
  `[p.strip() for p in text.split('\n') if p.strip()]` and its round trip
  with the `"\n".join` refill of the text areas.
- **Card** (`card.dfy`): the card geometry constants, the `Choice` record,
  the font metrics as integer functions, and a choice built from the form.
- **Wrap** (`wrap.dfy`): the greedy word wrap that runs over the description
  and over every pro and con. This includes the empty line it emits when
  the first word alone is too wide.
- **Chips** (`chips.dfy`): first-fit packing of the choice chips into rows,
  with the wrap rule, the accent border on the active choice, and the
  running lowest chip edge.
- **Layout** (`layout.dfy`): the vertical cursor from the description
  through the chips, the pros and the cons. It ends in the height the card
  needs and the decision to regrow the card background.
- **Drawing** (`drawing.dfy`): the positions and texts handed to each
  drawing call, in drawing order. As written, the canvas stays 800 x 1200
  even when the background is regrown. A corrected render grows the canvas
  with the background.
- **Entries** (`entries.dfy`): the saved-entries map keyed by question
  title. It covers `save_decision_entry`, the loader that pre-fills the
  form, and the refill of the choice slots.
- **Generate** (`generate.dfy`): the "Generate Video" name gate, one card
  per named choice, and the three-card timeline in tenths of a second.

Font measurement is a parameter (`Card.Fonts`). Every property holds for
any font, except that the drawing bounds listed under "## Left out" assume
chip text heights that are not negative:

- The description and pros/cons widths are Pillow's fractional
  `textlength`, rounded up. Rounding up keeps an integer `<=` against the
  integer bound equivalent to the float comparison.
- The chip width is the same length truncated by `int()`.
- The chip text height is `int(getbbox(...)[3])`.

## Model

| member | source | states |
|---|---|---|
| Text.Strip | app.py:128 | The result is the slice of the input that starts after its leading whitespace, and everything outside that slice is whitespace. The result has no whitespace at either end. Text that is already stripped is returned unchanged. |
| Text.StripContents | app.py:128 | Stripping only removes characters: the result uses only characters of the input. It is empty exactly when the input is all whitespace. |
| Text.SplitLinesPieces | app.py:128 | No piece of a newline split contains a newline. |
| Text.SplitLines | app.py:128 | A newline split always yields at least one piece, even for the empty text. |
| Text.Kept | app.py:128 | One line yields at most one entry: its stripped text, and only when the line is not all whitespace. |
| Text.KeepStripped | app.py:128 | The filter never yields more entries than there are lines. |
| Text.KeepStrippedConcat | app.py:128 | The filter works line by line: filtering two runs of lines gives the first run's entries, then the second's. |
| Text.KeepStrippedEmpty | app.py:128 | The filter yields nothing exactly when every line is all whitespace. |
| Text.ParseItems | app.py:128 | Every parsed pro or con is non-empty, stripped, and a single line. |
| Text.ParseItemsEmptyIffBlank | app.py:128 | A text area yields no entries exactly when it holds only whitespace, newlines included. |
| Text.ParseItemsOneLine | app.py:128 | A single line yields its stripped text, or nothing when it is blank. |
| Text.ParseItemsConcat | app.py:128 | Entries keep line order: parsing two texts joined by a newline gives the first text's entries, then the second's. |
| Text.JoinSplitLines | app.py:125-128 | Splitting a text on newlines and joining the pieces back with newlines gives the original text. |
| Text.JoinLines | app.py:125 | `"\n".join` of a list of entries. It is pinned by its round trips with the newline split: `Text.JoinSplitLines` and `Text.SplitJoinLines`. |
| Text.JoinLinesAllSpace | app.py:125 | A refilled text area is all whitespace exactly when every joined entry is. |
| Text.SplitJoinLines | app.py:125-128 | Joining newline-free pieces with newlines and splitting again gives the same pieces back. |
| Text.ParseJoinItems | app.py:125-128 | A list of parsed entries written into a text area with `"\n".join` parses back to the same list. |
| Text.ParseRefillStable | app.py:125-136 | Whatever a text area held, parsing, refilling and parsing again gives the same entries as the first parse. |
| Text.WordsSpaceAppend | app.py:319 | The words of a line extended by a space and a word are the line's words followed by that word. |
| Text.WordsOfJoinWords | app.py:315-319 | Words joined with single spaces split back into the same words. |
| Text.Words | app.py:315 | Every word of the whitespace split is non-empty and holds no whitespace. |
| Text.WordsEmptyIffAllSpace | app.py:315 | A text has no words exactly when it is all whitespace. |
| Card.ChoiceFromForm | app.py:121-142 | The choice keeps the typed name. All of its entries are well formed. It has no pros exactly when the pros area is blank, and likewise for cons. |
| Wrap.WrapText | app.py:314-329 | Each line is one of three things: a single (possibly too wide) word, a text within the width bound, or the empty line. The empty line appears only first, and exactly when the first word alone is too wide. Read back in order, the lines' words are exactly the text's words. There are no lines exactly when the text is blank. Every line is its own words joined by single spaces, and every run of two or more of its leading words fits the width. The wrap is greedy: every line but the last was closed only because the next line's first word would have pushed it past the width. |
| Wrap.Step | app.py:318-326 | One turn of the loop: the candidate becomes the accumulator when it fits, otherwise the accumulator is closed as a line and the word starts the next. `Wrap.StepKeepsInvariant`, `Wrap.StepKeepsGreedy`, `Wrap.StepKeepsSpaced` and `Wrap.StepKeepsFitted` state what one turn keeps. |
| Wrap.Fold | app.py:318-326 | The loop over all words of `split()`. `Wrap.FoldInvariant`, `Wrap.FoldGreedy`, `Wrap.FoldSpaced` and `Wrap.FoldFitted` state what holds after it. |
| Wrap.Flush | app.py:328-329 | The closing `if current_line` append. `Wrap.FlushFacts`, `Wrap.FlushGreedy`, `Wrap.FlushSpaced` and `Wrap.FlushFitted` state what it keeps. |
| Wrap.StepKeepsInvariant | app.py:318-326 | One turn of the loop keeps the loop invariant: the lines and the current line hold the words seen so far, and every closed line is allowed. |
| Wrap.FoldInvariant | app.py:318-326 | After the loop has seen any list of words, the invariant holds for exactly those words. |
| Wrap.FoldGreedy | app.py:318-326 | After the loop, every closed line was closed because the next word would not fit behind it. |
| Wrap.FlushFacts | app.py:328-329 | Appending the last current line keeps every line allowed and the words in order, and yields no lines exactly when there were no words. |
| Wrap.FlushGreedy | app.py:328-329 | Appending the last current line keeps every line but the last closed only for lack of room. |
| Wrap.StepKeepsSpaced | app.py:318-326 | One turn of the loop keeps the current line and every closed line equal to their words joined by single spaces, since the loop only builds `current_line + " " + word`. |
| Wrap.FoldSpaced | app.py:318-326 | After the loop, the current line and every closed line are their words joined by single spaces. |
| Wrap.FlushSpaced | app.py:328-329 | Appending the last current line keeps every line single-spaced. |
| Wrap.StepKeepsFitted | app.py:318-326 | One turn of the loop keeps every run of two or more leading words of the accumulator and of every closed line within the width. |
| Wrap.ExtendKeepsFitted | app.py:319-323 | Appending a word to a non-empty accumulator adds one new run of leading words, the candidate just measured, so all runs still fit. |
| Wrap.FoldFitted | app.py:318-326 | After the loop, every run of two or more leading words of each line fits the width. The first word alone may not. |
| Wrap.FlushFitted | app.py:328-329 | Appending the last current line keeps every line's runs of leading words within the width. |
| Wrap.WrapLineCount | app.py:314-329 | There are never more lines than words, except for the one empty line emitted when the first word is too wide. |
| Chips.Pack | app.py:342-383 | There is one chip per choice. The cursor left behind is one gap right of the last chip, on the last chip's row. |
| Chips.Place | app.py:345-383 | One turn of the chip loop. `Chips.PlaceFacts` and `Chips.ChipPosition` state where the chip goes, the running bottom and the cursor it leaves. |
| Chips.PlaceFacts | app.py:345-383 | One turn appends a chip for the choice behind the earlier chips. The chip sits at the cursor when it fits, and otherwise opens a lower row at the left margin. The running bottom covers it, and the cursor moves one gap past it. |
| Chips.PackBelowTop | app.py:343-383 | The running bottom never lies above the chips' top. |
| Chips.PackPrefix | app.py:345-383 | Packing more choices never moves the chips already placed. |
| Chips.ChipContents | app.py:345-368 | Chip i shows choice i's name at that name's padded size. It is bordered exactly when its name equals the active choice's name. |
| Chips.ChipPosition | app.py:354-382 | A chip wraps exactly when it would cross the right bound from the cursor. A wrapped chip starts at the left margin, one chip height plus the gap below the previous row. Any other chip sits at the cursor. |
| Chips.LastChipPosition | app.py:354-357 | The last chip wraps to the left margin, one chip height plus the gap lower, exactly when it would cross the right bound from the cursor. Otherwise it sits at the cursor. |
| Chips.PackBottom | app.py:343-383 | The running bottom is the largest of the top and every chip's bottom edge, and it is attained. |
| Chips.ChipFitsOrStartsRow | app.py:355-356 | Every chip ends left of the right bound or starts at the left margin. |
| Chips.OversizedFirstChipSkipsRow | app.py:342-357 | A first chip wider than a row leaves the first row empty and starts one row lower. |
| Chips.RowsDescend | app.py:357 | Rows never move up: chip tops are non-decreasing and never above the top. |
| Chips.PackShift | app.py:336-383 | Moving the top down by d moves every chip and the bottom down by d and leaves all x positions alone. |
| Chips.PackAppend | app.py:345-383 | Adding a chip keeps the earlier chips in place and never raises the bottom. |
| Layout.PlaceItemsEnd | app.py:390-420 | The cursor after a list is its start plus the summed advance of the entries. |
| Layout.PlaceItems | app.py:392-420 | One placed entry per pro or con. |
| Layout.TotalAdvance | app.py:392-420 | A list moves the cursor down by at least 10 per entry. |
| Layout.PlaceItemsPrefix | app.py:392-420 | Placing more entries never moves the entries already placed. |
| Layout.PlacedItemShape | app.py:392-417 | Entry i shows entry i wrapped to the item width. Its bullet is one step below the summed advance of the entries before it. |
| Layout.ItemAdvanceBounds | app.py:393-420 | An entry moves the cursor down by at least 10, and by at least 50 when it is not blank. |
| Layout.ItemAdvance | app.py:393-420 | How far one entry moves the cursor: 50 to its bullet, then 40 per line after the first. `Layout.ItemAdvanceBounds` bounds it below by 10, and by 50 for a non-blank entry. |
| Layout.TotalAdvanceNonBlank | app.py:392-420 | A list of non-blank entries moves the cursor down by at least 50 per entry. |
| Layout.CursorFormula | app.py:336-458 | The cursor in closed form. The chips start one gap below the description's last line. The pros label is one gap below the lowest chip. The cons label is the pros' advance plus a section gap further down. The card ends a section gap below the cons. |
| Layout.ChoicesTop | app.py:336 | Where the chips start below a number of description lines. `Layout.ChoicesTopShift` shows each extra line moving it 40 down, and `Layout.DescriptionLinesShift` every chip with it. |
| Layout.ChoicesTopShift | app.py:336 | Each extra description line starts the chips one line height lower. |
| Layout.LayoutCard | app.py:311-458 | The description lines hold exactly the description's words, in order, and there are none exactly when the description is blank. There is one chip per choice and one placed entry per pro and per con. |
| Layout.LayoutLines | app.py:332-458 | The card keeps the description lines it is given, with one chip per choice and one placed entry per pro and per con. |
| Layout.LayoutCardMinHeight | app.py:332-458 | The card ends at least the description, two block gaps, two section gaps and 10 per pro and con below the description top. |
| Layout.FinalHeightFormula | app.py:386-458 | Once the chips are placed, the card's height depends only on the pros' and cons' advances. |
| Layout.TotalAdvanceAppend | app.py:392-420 | Appending an entry adds exactly that entry's advance. |
| Layout.AppendProGrows | app.py:392-458 | Adding a pro makes the card exactly that pro's advance taller: at least 10, and at least 50 when the pro is not blank. |
| Layout.AppendConGrows | app.py:427-458 | Adding a con makes the card exactly that con's advance taller: at least 10, and at least 50 when the con is not blank. |
| Layout.DescriptionLinesShift | app.py:332-357 | Each extra description line makes the card one line height taller and moves every chip down by the same amount, with x unchanged. |
| Layout.LinesShift | app.py:336-458 | For two already wrapped descriptions, the card grows by one line height per extra line, and the chips move down by the same amount with x unchanged. |
| Layout.AppendChoiceNoShrink | app.py:345-386 | Adding a choice, and so a chip, never makes the card shorter. |
| Layout.BackgroundHeight | app.py:458-461 | The background is at least the nominal 850. It is regrown exactly when the content ends below the nominal card, and it then reaches exactly the content's end. |
| Drawing.ListBlocksWithin | app.py:392-420 | Every bullet and line of a list starts between the list's start and one line height below the cursor it leaves. |
| Drawing.DescriptionBlocks | app.py:332-333 | One drawing call per description line, writing that line, all at the text margin. The first is at the description top and each next one a line height lower. |
| Drawing.ChipBlocks | app.py:375-379 | Two drawing calls per chip, a box and a label, and the labels write the chip names in order. |
| Drawing.ChipBlocksAt | app.py:375-379 | Chip i is drawn as calls 2i and 2i+1: its box at its packed position and size, bordered exactly when the chip is active, then its name 24 px right of and 12 px below the box's corner. |
| Drawing.CardChipBlocks | app.py:345-379 | On a laid-out card, the box for choice i sits at that chip's packed position with the name's padded size. It is bordered exactly when the choice's name equals the active choice's name, and its label writes that name. |
| Drawing.ItemBlocks | app.py:392-417 | An entry draws its bullet at its cursor, then its lines at the item indent. The first line is level with the bullet and each next one a line height lower. The texts are the bullet followed by the lines. |
| Drawing.ListBlocks | app.py:392-420 | A list writes each entry's bullet and lines, entry by entry. |
| Drawing.CardTexts | app.py:293-455 | Read in drawing order, a card writes its category, its title, the description lines, the chip names, "Pros:", the pros, "Cons:" and the cons. |
| Drawing.Blocks | app.py:293-455 | The card's drawing calls in order. `Drawing.CardTexts` states everything it writes, `Drawing.ChipBlocksAt` the chip calls, `Drawing.ProsLabelDrawn` and `Drawing.ConsLabelDrawn` the labels, and `Drawing.BlocksInsideCard` where every call starts. |
| Drawing.CardChipNames | app.py:345-379 | A laid-out card writes one chip name per choice: chip i names choice i. |
| Drawing.ConsLabelDrawn | app.py:423-424 | The "Cons:" label is drawn at the cons' cursor. |
| Drawing.ProsLabelDrawn | app.py:386-389 | The "Pros:" label is drawn at the text margin and the pros' cursor. |
| Drawing.ChipsWithin | app.py:375-383 | Every chip box and chip label starts between the chips' top and their running bottom. |
| Drawing.SectionsInOrder | app.py:336-458 | The description ends above the chips' top. The chips end one gap above the pros label. The pros label lies above the cons label, and that lies above the card's end. The background reaches the card's end. |
| Drawing.ListsWithin | app.py:386-458 | The pros' drawing calls lie between the pros label and a line height below where the cons label's gap begins. The cons' calls lie likewise above the card's end. |
| Drawing.LayoutCardWellLaidOut | app.py:311-461 | Every laid-out card has its sections in order, each section's drawing calls within its own band, and a background reaching the content's end. |
| Drawing.LaidOutWithin | app.py:293-461 | For any card laid out that way, every drawing call starts below the card's top and at least one line height above the bottom of its background. |
| Drawing.BlocksInsideCard | app.py:293-461 | Every drawing call of a card starts inside the card. Each lies below the card's top edge and at least one line height above the bottom of the background, regrown if need be. |
| Drawing.RenderCard | app.py:240-480 | As written, the card is drawn with its layout's drawing calls on a canvas that stays 1200 tall. The background crosses the canvas edge exactly when the content ends below it. |
| Drawing.ConsLabelBelowFixedCanvas | app.py:423-478 | As written, the canvas stays 1200 tall. With thirteen or more non-blank pros, the "Cons:" label and the end of the regrown background fall below the canvas edge. |
| Drawing.CanvasHeightFor | app.py:458-478 | The corrected canvas is at least the nominal 1200 and tall enough for the background. It is exactly one of the two. |
| Drawing.RenderCardGrown | app.py:458-478 | The corrected render draws the same calls for the same layout, on a canvas at least the nominal 1200 tall. |
| Drawing.RenderedBlocksOnCanvas | app.py:293-478 | On the corrected canvas, every drawing call starts inside the canvas, at least a line height above its bottom, and the background fits. |
| Entries.SavedRecord | app.py:802-807 | The saved record has exactly the keys category, title, description and choices, holding the form's values. It has no overlay text. |
| Entries.SaveDecisionEntry | app.py:800-810 | The entry is filed under its title, replacing any earlier one with that title. The filed record holds the four form values and no overlay text. Every other entry is unchanged. |
| Entries.StrField | app.py:68-71 | Reading a field succeeds exactly when the key is present with a string. A missing key is a key error. |
| Entries.ChoicesField | app.py:72 | Reading the choices succeeds exactly when the key holds a choice list, and then gives that list. A missing key is a key error. |
| Entries.LoadEntry | app.py:66-71 | A loaded entry requires all five keys. A record without the overlay text fails on that key before anything else. |
| Entries.SelectEntry | app.py:59-86 | "New Entry" gives the blank form. A saved title loads exactly when its record holds all five fields, and the loaded entry then holds the record's values. A record without the overlay text fails on that key. |
| Entries.SavedEntryNeverLoads | app.py:800-810 | Selecting any entry the saver wrote fails with a missing `video_text` key. |
| Entries.SentinelTitleShowsBlank | app.py:59-79 | An entry saved under the title "New Entry" is filed, but selecting that title still shows the blank form. |
| Entries.EntryRecord | app.py:802-807 | The corrected record holds the overlay text besides the four saved fields. |
| Entries.SaveEntry | app.py:800-810 | The corrected save files the entry under its title and leaves the other entries unchanged. |
| Entries.SaveEntryLoads | app.py:800-810 | After the corrected save, selecting the title loads exactly what was saved. |
| Entries.SaveKeepsOtherEntries | app.py:810 | Saving under one title does not change what another title loads. |
| Entries.DefaultChoiceCount | app.py:99-103 | The form opens with one slot per saved choice, or exactly three when there are none. |
| Entries.RefillSlot | app.py:113-142 | A refilled slot is well formed and keeps the saved name. A slot past the saved choices is empty. |
| Entries.RefillChoices | app.py:113-142 | One choice per slot, all well formed. A slot with a saved choice behind it keeps that choice's name. The slots past the saved choices are empty. |
| Entries.RefillSlotRoundTrip | app.py:113-142 | A well-formed saved choice comes back unchanged from its slot. |
| Entries.RefillRoundTrip | app.py:113-142 | Refilling well-formed saved choices reproduces them, in order. |
| Entries.LoadedChoicesRestored | app.py:66-142 | After the corrected save, loading and refilling restores every choice, in order. |
| Generate.NamedChoices | app.py:832-833 | The loop draws only named choices: at most as many as there are choices, all named, and each one taken from the input. |
| Generate.NamedChoicesConcat | app.py:832-833 | The loop works choice by choice: two runs of choices give the first run's cards, then the second's. |
| Generate.NamedChoicesKeepsNamed | app.py:832-833 | Every named choice gets a card. |
| Generate.NamedChoicesAll | app.py:819-833 | When every choice is named, the loop draws all of them, in order. |
| Generate.DrawCards | app.py:832-842 | One card per drawn choice, with that choice active and every choice in the chip row, drawn with its layout's calls on the fixed 1200-tall canvas. |
| Generate.GenerateCards | app.py:818-842 | The error comes back exactly when some choice has an empty name. Otherwise there is one card per choice, in form order, drawn with that choice active, each on the fixed 1200-tall canvas. |
| Generate.ShownCount | app.py:490 | The video keeps the first three cards, or all of them when there are fewer. |
| Generate.SlotFor | app.py:664-672 | Every card lasts 1.5 s, and only the first fades in. From the third card on, each card starts when the previous one ends. The second starts 1.5 s after the first card's undelayed start. |
| Generate.Schedule | app.py:664-672 | There is one slot per kept card. Each lasts 1.5 s, only the first fades in, and all start after 0 and end by half a second after the overlay text. |
| Generate.TotalDuration | app.py:492 | The overlay text lasts 1.5 s per kept card, at most 4.5 s. With two or more cards it ends exactly when the last card does. It is zero exactly when there are no cards. |
| Generate.ScheduleBackToBack | app.py:489-492 | After the first card, each card starts when the previous one ends, and none outlasts the overlay text. |
| Generate.FirstCardOverlaps | app.py:664-672 | The delayed first card ends half a second after the second card starts. A lone card outlasts the overlay text by half a second. |

## Left out

- The Streamlit form widgets, the file uploaders and the session state are left out. The form's values are parameters.
- Pillow's drawing is left out: images, masks, colours, rounded corners and alpha compositing. The model keeps the coordinates and texts handed to each drawing call.
- Font loading and its fallbacks are left out. Text measurement is an abstract parameter.
- The HTML card template, its rendering through `wkhtmltoimage` or a headless browser, and the green-to-transparent pixel pass are left out. These are external programs.
- The video builder renders each card again from the HTML template. Only how many Pillow cards exist reaches the timeline, so the model keeps that count.
- The moviepy compositing, background video cropping and looping, audio and file writing are left out.
- The `create_decision_video` function is left out because nothing calls it.
- Reading and writing `saved_entries.json` is left out. The store is the in-memory map. The JSON text form and `ensure_ascii` are not modelled.
- The category and title are drawn at fixed positions without wrapping. The model keeps them as single drawing calls.
- Entries.LoadEntry: a stored choice is a `Choice` value rather than a JSON object, so a choice lacking `name`, `pros` or `cons` is not modelled. A wrongly typed field is reported as `WrongType`, where the program would fail later.
- Entries.DefaultChoiceCount: the number input's upper bound of five is not modelled, nor what the widget does with a larger default. The user's changes to the count are a parameter of `RefillChoices`.
- Chips.PlaceFacts: a wrapping chip is stated to open a lower row only when its height is not negative, since the font metric is arbitrary.
- Drawing.ChipsWithin: requires every chip's text height to be non-negative, since with a negative enough height a wrapped row moves up above the chips' top and a label can start below the running bottom. Real fonts satisfy this.
- Drawing.LayoutCardWellLaidOut: requires non-negative chip text heights, because it rests on `Drawing.ChipsWithin`.
- Drawing.BlocksInsideCard: requires non-negative chip text heights, because it rests on `Drawing.ChipsWithin`.
- Drawing.RenderedBlocksOnCanvas: requires non-negative chip text heights, because it rests on `Drawing.ChipsWithin`.
- Chips.RowsDescend: it assumes chip heights are not so negative that a wrap moves the row up. Real fonts satisfy this.
- Generate.Schedule: the fade-in of the first card is recorded but not modelled as opacity over time.

Two points where the code departs from the intended design, followed here:

- A chip wider than a whole row is not shrunk. It starts at the left margin and overflows the right bound (`Chips.ChipFitsOrStartsRow`, `Chips.OversizedFirstChipSkipsRow`).
- The first card appears at 0.5 s and lasts 1.5 s, so it overlaps the second card by half a second. It is not delayed as a whole (`Generate.FirstCardOverlaps`).

## Findings

| source | as written | input that shows it | evidently intended | confidence | as-written member | corrected member |
|---|---|---|---|---|---|---|
| app.py:800-810 | `save_decision_entry` stores category, title, description and choices. The loader at line 68 reads `entry_data["video_text"]` first. | Save any entry under a title other than "New Entry", then select that title in "Load saved entry": the lookup of `video_text` raises `KeyError`. | The saver stores the overlay text too, so a saved entry loads back. | high, not executed | Entries.SavedEntryNeverLoads | Entries.SaveEntryLoads |
| app.py:458-478 | When the content runs past the card, the background is regrown, but the canvas stays at the 800 x 1200 set at line 243. | An active choice with thirteen non-blank one-line pros puts the "Cons:" label below y 1200, so it is cut off. | The canvas grows with the background, so every drawn element is visible. | medium, not executed | Drawing.ConsLabelBelowFixedCanvas | Drawing.RenderedBlocksOnCanvas |

=== FILE: card.dfy ===
/** The decision card's data model and the fixed geometry of
    `create_card_image`. */
module Card {
  import opened Text

  /** The transparent canvas every card is drawn on. */
  const CanvasWidth: int := 800
  const CanvasHeight: int := 1200

  /** The card rectangle: 85% of the canvas width, centred, 250 px from the
      top, 850 px tall before any regrow. */
  const CardWidth: int := CanvasWidth * 85 / 100
  const CardX: int := (CanvasWidth - CardWidth) / 2
  const CardY: int := 250
  const CardHeight: int := 850

  /** Vertical distance between two wrapped text lines. */
  const LineHeight: int := 40

  /** Wrap width of the description (32 px padding each side) and of a
      pros/cons entry (room left for the bullet indentation). */
  const DescriptionWidth: int := CardWidth - 64
  const ItemWidth: int := CardWidth - 250

  /** One option of the decision with its parsed pros and cons. */
  datatype Choice = Choice(name: string, pros: seq<string>, cons: seq<string>)

  /** The font metrics the layout consults, abstracted as integer functions.
      `desc` and `item` give the rendered width of a line in the description
      and pros/cons fonts, rounded up, so that `<=` against an integer bound
      agrees with Pillow's fractional `textlength`; `chipText` is the chip
      font's width truncated by `int()`, and `chipTextHeight` the bottom of
      the chip text's bounding box. */
  datatype Fonts = Fonts(
    desc: string -> int,
    chipText: string -> int,
    chipTextHeight: string -> int,
    item: string -> int)

  datatype Result<T, E> = Success(value: T) | Failure(error: E)

  function Max(a: int, b: int): int {
    if a >= b then a else b
  }

  /** Every pros/cons entry is a parsed item. */
  predicate WellFormedChoice(c: Choice) {
    && (forall i :: 0 <= i < |c.pros| ==> IsItem(c.pros[i]))
    && (forall i :: 0 <= i < |c.cons| ==> IsItem(c.cons[i]))
  }

  /** The choice the form builds from a name field and two text areas, one
      entry per line. */
  function ChoiceFromForm(name: string, prosText: string, consText: string): (c: Choice)
    ensures c.name == name && WellFormedChoice(c)
    ensures c.pros == [] <==> AllSpace(prosText)
    ensures c.cons == [] <==> AllSpace(consText)
  {
    ParseItemsEmptyIffBlank(prosText);
    ParseItemsEmptyIffBlank(consText);
    Choice(name, ParseItems(prosText), ParseItems(consText))
  }
}

=== FILE: chips.dfy ===
/** The row of choice chips under the description: one rounded label per
    choice, packed left to right first-fit and wrapped to a new row when the
    next chip would pass the card's right margin. */
module Chips {
  import opened Card

  /** The left margin a row starts at and the bound no chip should cross. */
  const ChipLeft: int := CardX + 32
  const ChipRight: int := CardX + CardWidth - 32
  /** Horizontal gap after a chip and vertical gap between rows. */
  const ChipGap: int := 12

  /** A placed chip: its top-left corner, size, and whether it carries the
      accent border of the active choice. */
  datatype Chip = Chip(name: string, x: int, y: int, width: int, height: int, active: bool)

  /** The packing cursor `choice_x`, the row top `choices_y`, the running
      `max_choice_y`, and the chips placed so far. */
  datatype Packing = Packing(x: int, y: int, maxY: int, chips: seq<Chip>)

  /** The chip's size: the name's width and text height plus padding. */
  function ChipWidth(fonts: Fonts, name: string): int {
    fonts.chipText(name) + 48
  }

  function ChipHeight(fonts: Fonts, name: string): int {
    fonts.chipTextHeight(name) + 24
  }

  /** Where the cursor stands before chip `i` is placed. */
  function CursorX(chips: seq<Chip>, i: int): int
    requires 0 <= i <= |chips|
  {
    if i == 0 then ChipLeft else chips[i - 1].x + chips[i - 1].width + ChipGap
  }

  function CursorY(chips: seq<Chip>, i: int, top: int): int
    requires 0 <= i <= |chips|
  {
    if i == 0 then top else chips[i - 1].y
  }

  /** Chip `i` did not fit behind its predecessor. */
  predicate Wrapped(chips: seq<Chip>, i: int)
    requires 0 <= i < |chips|
  {
    CursorX(chips, i) + chips[i].width > ChipRight
  }

  /** One turn of the chip loop: wrap if the chip would cross the right
      bound, place it, advance the cursor and the running bottom. */
  function Place(p: Packing, choice: Choice, activeName: string, fonts: Fonts): Packing
  {
    var w := ChipWidth(fonts, choice.name);
    var h := ChipHeight(fonts, choice.name);
    var wraps := p.x + w > ChipRight;
    var x := if wraps then ChipLeft else p.x;
    var y := if wraps then p.y + h + ChipGap else p.y;
    Packing(x + w + ChipGap, y, Max(p.maxY, y + h), p.chips + [Chip(choice.name, x, y, w, h, choice.name == activeName)])
  }

  /** One turn appends a chip for the choice after the earlier ones; the
      chip either fits before the right bound on the cursor's row or opens a
      lower row at the left margin; the running bottom covers it; and the
      cursor moves just past it. */
  lemma PlaceFacts(p: Packing, choice: Choice, activeName: string, fonts: Fonts)
    ensures var q := Place(p, choice, activeName, fonts);
      && |q.chips| == |p.chips| + 1 && q.chips[..|p.chips|] == p.chips
      && var c := q.chips[|p.chips|];
      && c.name == choice.name
      && c.width == ChipWidth(fonts, choice.name) && c.height == ChipHeight(fonts, choice.name)
      && (c.active <==> choice.name == activeName)
      && (p.x + c.width <= ChipRight ==> c.x == p.x && c.y == p.y)
      && (p.x + c.width > ChipRight && c.height >= 0 ==> c.x == ChipLeft && c.y > p.y)
      && q.maxY >= p.maxY && q.maxY >= c.y + c.height
      && (q.maxY == p.maxY || q.maxY == c.y + c.height)
      && q.x == c.x + c.width + ChipGap && q.y == c.y
  {
  }

  /** All choices packed below `top`, in order. The cursor left behind is
      where a further chip would be tried. */
  function Pack(choices: seq<Choice>, activeName: string, top: int, fonts: Fonts): (p: Packing)
    ensures |p.chips| == |choices|
    ensures p.x == CursorX(p.chips, |p.chips|) && p.y == CursorY(p.chips, |p.chips|, top)
    decreases |choices|
  {
    if |choices| == 0 then Packing(ChipLeft, top, top, [])
    else
      var n := |choices| - 1;
      Place(Pack(choices[..n], activeName, top, fonts), choices[n], activeName, fonts)
  }

  /** The running bottom never lies above the first row's top. */
  lemma {:induction false} PackBelowTop(choices: seq<Choice>, activeName: string, top: int, fonts: Fonts)
    ensures Pack(choices, activeName, top, fonts).maxY >= top
    decreases |choices|
  {
    if |choices| > 0 {
      PackBelowTop(choices[..|choices| - 1], activeName, top, fonts);
    }
  }

  /** Packing more choices never moves the chips already placed. */
  lemma {:induction false} PackPrefix(choices: seq<Choice>, activeName: string, top: int, fonts: Fonts, k: nat)
    requires k <= |choices|
    ensures Pack(choices, activeName, top, fonts).chips[..k] == Pack(choices[..k], activeName, top, fonts).chips
    decreases |choices|
  {
    if k < |choices| {
      var n := |choices| - 1;
      assert choices[..n][..k] == choices[..k];
      PackPrefix(choices[..n], activeName, top, fonts, k);
      var prev := Pack(choices[..n], activeName, top, fonts).chips;
      var all := Pack(choices, activeName, top, fonts).chips;
      assert all[..n] == prev;
      assert all[..k] == prev[..k];
    } else {
      assert choices[..k] == choices;
    }
  }

  /** Chip `i` shows choice `i`'s name at that name's size, and carries the
      accent border exactly when its name equals the active choice's name,
      so every chip sharing that name is bordered. */
  lemma ChipContents(choices: seq<Choice>, activeName: string, top: int, fonts: Fonts, i: int)
    requires 0 <= i < |choices|
    ensures var c := Pack(choices, activeName, top, fonts).chips[i];
      && c.name == choices[i].name
      && c.width == ChipWidth(fonts, choices[i].name)
      && c.height == ChipHeight(fonts, choices[i].name)
      && (c.active <==> choices[i].name == activeName)
  {
    PackPrefix(choices, activeName, top, fonts, i + 1);
    var prefix := choices[..i + 1];
    assert prefix[..i] == choices[..i];
    assert Pack(prefix, activeName, top, fonts).chips[i] == Pack(choices, activeName, top, fonts).chips[i];
  }

  /** Chip `i` wraps exactly when it would cross the right bound from the
      cursor; a wrapped chip starts at the left margin one chip height plus
      the gap below the previous row, any other chip sits at the cursor on
      the current row. */
  lemma ChipPosition(choices: seq<Choice>, activeName: string, top: int, fonts: Fonts, i: int)
    requires 0 <= i < |choices|
    ensures var chips := Pack(choices, activeName, top, fonts).chips;
      && chips[i].x == (if Wrapped(chips, i) then ChipLeft else CursorX(chips, i))
      && chips[i].y == (if Wrapped(chips, i) then CursorY(chips, i, top) + chips[i].height + ChipGap
                        else CursorY(chips, i, top))
  {
    var chips := Pack(choices, activeName, top, fonts).chips;
    PackPrefix(choices, activeName, top, fonts, i + 1);
    LastChipPosition(choices[..i + 1], activeName, top, fonts);
    CursorsOfPrefix(chips, i + 1, i, top);
  }

  /** The last chip of a packing sits where the final turn of the loop put it. */
  lemma LastChipPosition(choices: seq<Choice>, activeName: string, top: int, fonts: Fonts)
    requires |choices| > 0
    ensures var chips := Pack(choices, activeName, top, fonts).chips;
      var i := |choices| - 1;
      && chips[i].x == (if Wrapped(chips, i) then ChipLeft else CursorX(chips, i))
      && chips[i].y == (if Wrapped(chips, i) then CursorY(chips, i, top) + chips[i].height + ChipGap
                        else CursorY(chips, i, top))
  {
    var n := |choices| - 1;
    var before := Pack(choices[..n], activeName, top, fonts);
    var chips := Pack(choices, activeName, top, fonts).chips;
    assert chips[..n] == before.chips;
    if n > 0 {
      assert chips[n - 1] == before.chips[n - 1];
    }
    assert CursorX(chips, n) == before.x;
    assert CursorY(chips, n, top) == before.y;
  }

  /** A prefix of the chips agrees with the whole on the cursor before each
      of its chips and on which of them wrapped. */
  lemma CursorsOfPrefix(chips: seq<Chip>, k: int, i: int, top: int)
    requires 0 <= i < k <= |chips|
    ensures chips[..k][i] == chips[i]
    ensures CursorX(chips[..k], i) == CursorX(chips, i)
    ensures CursorY(chips[..k], i, top) == CursorY(chips, i, top)
    ensures Wrapped(chips[..k], i) <==> Wrapped(chips, i)
  {
  }

  /** The running bottom `max_choice_y` is the largest of `top` and every
      chip's bottom edge. */
  lemma {:induction false} PackBottom(choices: seq<Choice>, activeName: string, top: int, fonts: Fonts)
    ensures var p := Pack(choices, activeName, top, fonts);
      && p.maxY >= top
      && (forall i :: 0 <= i < |choices| ==> p.maxY >= p.chips[i].y + p.chips[i].height)
      && (p.maxY == top || exists i :: 0 <= i < |choices| && p.maxY == p.chips[i].y + p.chips[i].height)
    decreases |choices|
  {
    if |choices| > 0 {
      var n := |choices| - 1;
      PackBottom(choices[..n], activeName, top, fonts);
      var prev := Pack(choices[..n], activeName, top, fonts);
      var p := Pack(choices, activeName, top, fonts);
      assert forall i :: 0 <= i < n ==> p.chips[i] == prev.chips[i];
      assert p.maxY == Max(prev.maxY, p.chips[n].y + p.chips[n].height);
    }
  }

  /** Every chip either ends left of the right bound or starts a row at the
      left margin: only a chip wider than a whole row can overflow. */
  lemma ChipFitsOrStartsRow(choices: seq<Choice>, activeName: string, top: int, fonts: Fonts, i: int)
    requires 0 <= i < |choices|
    ensures var c := Pack(choices, activeName, top, fonts).chips[i];
      c.x + c.width <= ChipRight || c.x == ChipLeft
  {
    ChipPosition(choices, activeName, top, fonts, i);
  }

  /** A first chip wider than a row still goes through the wrap test, so the
      first row is left empty and the chip starts one row lower. */
  lemma OversizedFirstChipSkipsRow(choices: seq<Choice>, activeName: string, top: int, fonts: Fonts)
    requires |choices| > 0 && ChipWidth(fonts, choices[0].name) > ChipRight - ChipLeft
    ensures var c := Pack(choices, activeName, top, fonts).chips[0];
      c.x == ChipLeft && c.y == top + ChipHeight(fonts, choices[0].name) + ChipGap
  {
    ChipContents(choices, activeName, top, fonts, 0);
    ChipPosition(choices, activeName, top, fonts, 0);
  }

  /** Chip heights the row arithmetic can rely on: no name's text height is
      so negative that a wrap would move the row up. */
  predicate HeightsSane(choices: seq<Choice>, fonts: Fonts) {
    forall i :: 0 <= i < |choices| ==> ChipHeight(fonts, choices[i].name) + ChipGap >= 0
  }

  /** Rows never move up: chips come in non-decreasing row order, all at or
      below `top`. */
  lemma RowsDescend(choices: seq<Choice>, activeName: string, top: int, fonts: Fonts)
    requires HeightsSane(choices, fonts)
    ensures var chips := Pack(choices, activeName, top, fonts).chips;
      forall i, j :: 0 <= i <= j < |chips| ==> top <= chips[i].y <= chips[j].y
  {
    var chips := Pack(choices, activeName, top, fonts).chips;
    forall k | 0 <= k < |chips| ensures CursorY(chips, k, top) <= chips[k].y {
      ChipContents(choices, activeName, top, fonts, k);
      ChipPosition(choices, activeName, top, fonts, k);
    }
    forall i, j | 0 <= i <= j < |chips| ensures top <= chips[i].y <= chips[j].y {
      RowChain(chips, top, i, j);
    }
  }

  lemma {:induction false} RowChain(chips: seq<Chip>, top: int, i: int, j: int)
    requires forall k :: 0 <= k < |chips| ==> CursorY(chips, k, top) <= chips[k].y
    requires 0 <= i <= j < |chips|
    ensures top <= chips[i].y <= chips[j].y
    decreases j
  {
    if j > i {
      RowChain(chips, top, i, j - 1);
      assert CursorY(chips, j, top) <= chips[j].y;
    } else if i > 0 {
      RowChain(chips, top, i - 1, i - 1);
      assert CursorY(chips, i, top) <= chips[i].y;
    } else {
      assert CursorY(chips, 0, top) <= chips[0].y;
    }
  }

  /** Moving the first row down by `d` moves every chip and the running
      bottom down by `d` and leaves all horizontal positions alone. */
  lemma {:induction false} PackShift(choices: seq<Choice>, activeName: string, top: int, d: int, fonts: Fonts)
    ensures var a := Pack(choices, activeName, top, fonts);
      var b := Pack(choices, activeName, top + d, fonts);
      && b.maxY == a.maxY + d && b.x == a.x && b.y == a.y + d
      && forall i :: 0 <= i < |choices| ==> b.chips[i] == a.chips[i].(y := a.chips[i].y + d)
    decreases |choices|
  {
    if |choices| > 0 {
      PackShift(choices[..|choices| - 1], activeName, top, d, fonts);
    }
  }

  /** `b` is `a` moved down by `d`: same chips, same horizontal positions. */
  predicate ChipsShifted(a: seq<Chip>, b: seq<Chip>, d: int) {
    |b| == |a| && forall i :: 0 <= i < |a| ==> b[i].y == a[i].y + d && b[i].x == a[i].x
  }

  /** The chips part of `PackShift`. */
  lemma PackShiftChips(choices: seq<Choice>, activeName: string, top: int, d: int, fonts: Fonts)
    ensures ChipsShifted(Pack(choices, activeName, top, fonts).chips, Pack(choices, activeName, top + d, fonts).chips, d)
  {
    PackShift(choices, activeName, top, d, fonts);
  }

  /** The running-bottom part of `PackShift`. */
  lemma PackShiftBottom(choices: seq<Choice>, activeName: string, top: int, d: int, fonts: Fonts)
    ensures Pack(choices, activeName, top + d, fonts).maxY == Pack(choices, activeName, top, fonts).maxY + d
  {
    PackShift(choices, activeName, top, d, fonts);
  }

  /** Adding a chip at the end leaves the earlier chips where they were and
      never raises the running bottom. */
  lemma PackAppend(choices: seq<Choice>, extra: Choice, activeName: string, top: int, fonts: Fonts)
    ensures var a := Pack(choices, activeName, top, fonts);
      var b := Pack(choices + [extra], activeName, top, fonts);
      && b.maxY >= a.maxY
      && b.chips[..|choices|] == a.chips
  {
    assert (choices + [extra])[..|choices|] == choices;
  }
}

=== FILE: drawing.dfy ===
/** The coordinates `create_card_image` hands to its drawing calls, in the
    order it makes them, and the canvas they land on: the fixed 800 x 1200
    canvas of the source, and a canvas that grows with the card. */
module Drawing {
  import opened Text
  import opened Card
  import opened Chips
  import opened Layout

  /** Fixed positions of the header, the labels and the list indentation. */
  const TextLeft: int := CardX + 32
  const HeaderTop: int := CardY + 32
  const TitleTop: int := CardY + 100
  const LockX: int := CardX + CardWidth - 84
  const LockSize: int := 52
  const BulletX: int := CardX + 152
  const ItemTextX: int := CardX + 180
  /** A chip's name is inset 24 px and centred vertically; the chip is its
      text height plus 24 tall, so the centring offset is always 12. */
  const ChipTextInset: int := 24
  const ChipTextDrop: int := 12

  const Bullet: string := "\U{2022}"

  /** One drawing call: a text, the lock ellipse, or a chip background with
      or without the accent border. */
  datatype Block =
    | TextBlock(x: int, y: int, text: string)
    | LockIcon(x: int, y: int, size: int)
    | ChipBox(x: int, y: int, width: int, height: int, bordered: bool)

  /** A card as drawn: its layout, the drawing calls, and the height of the
      canvas they are drawn on. */
  datatype RenderedCard = RenderedCard(layout: CardLayout, blocks: seq<Block>, canvasHeight: int)

  /** The texts a run of drawing calls writes, in drawing order. */
  function Texts(bs: seq<Block>): seq<string> {
    if |bs| == 0 then [] else TextOf(bs[0]) + Texts(bs[1..])
  }

  /** The text one drawing call writes: none for the lock and chip boxes. */
  function TextOf(b: Block): seq<string> {
    if b.TextBlock? then [b.text] else []
  }

  /** The texts of two runs drawn one after the other. */
  lemma {:induction false} TextsConcat(a: seq<Block>, b: seq<Block>)
    ensures Texts(a + b) == Texts(a) + Texts(b)
    decreases |a|
  {
    if |a| > 0 {
      TextsConcat(a[1..], b);
      TextsConcatStep(a, b);
    } else {
      assert a + b == b;
    }
  }

  lemma TextsConcatStep(a: seq<Block>, b: seq<Block>)
    requires |a| > 0
    requires Texts(a[1..] + b) == Texts(a[1..]) + Texts(b)
    ensures Texts(a + b) == Texts(a) + Texts(b)
  {
    ConsOfConcat(a, b);
    Regroup(Texts(a + b), TextOf(a[0]), Texts(a[1..]), Texts(b), Texts(a[1..] + b));
  }

  /** A run of text calls writes exactly their texts. */
  lemma {:induction false} TextsOfTextBlocks(bs: seq<Block>, texts: seq<string>)
    requires |bs| == |texts|
    requires forall i :: 0 <= i < |bs| ==> bs[i].TextBlock? && bs[i].text == texts[i]
    ensures Texts(bs) == texts
    decreases |bs|
  {
    if |bs| > 0 {
      forall i | 0 <= i < |bs| - 1 ensures bs[1..][i].TextBlock? && bs[1..][i].text == texts[1..][i] {
        assert bs[1..][i] == bs[i + 1];
      }
      TextsOfTextBlocks(bs[1..], texts[1..]);
      assert texts == [texts[0]] + texts[1..];
    }
  }

  /** The description: its lines, in order, at the left text margin, the
      first at the description top and each one line height below the last. */
  function DescriptionBlocks(lines: seq<string>): (bs: seq<Block>)
    ensures |bs| == |lines|
    ensures Texts(bs) == lines
    ensures forall i :: 0 <= i < |bs| ==> bs[i].x == TextLeft
    ensures |bs| > 0 ==> bs[0].y == DescriptionTop
    ensures forall i :: 0 < i < |bs| ==> bs[i].y == bs[i - 1].y + LineHeight
  {
    var bs := seq(|lines|, i requires 0 <= i < |lines| => TextBlock(TextLeft, DescriptionTop + LineHeight * i, lines[i]));
    TextsOfTextBlocks(bs, lines);
    bs
  }

  /** The names on a row of chips, in order. */
  function ChipNames(chips: seq<Chip>): (names: seq<string>)
    ensures |names| == |chips|
  {
    seq(|chips|, i requires 0 <= i < |chips| => chips[i].name)
  }

  /** Each chip: its box, then its name inset into it. The chips write
      their names, in order, and nothing else. */
  function ChipBlocks(chips: seq<Chip>): (bs: seq<Block>)
    ensures |bs| == 2 * |chips|
    ensures Texts(bs) == ChipNames(chips)
    decreases |chips|
  {
    if |chips| == 0 then []
    else
      var n := |chips| - 1;
      var c := chips[n];
      var prev := ChipBlocks(chips[..n]);
      var pair := [ChipBox(c.x, c.y, c.width, c.height, c.active), TextBlock(c.x + ChipTextInset, c.y + ChipTextDrop, c.name)];
      TextsConcat(prev, pair);
      TextsOfTextBlocks(pair[1..], [c.name]);
      assert ChipNames(chips) == ChipNames(chips[..n]) + [c.name];
      prev + pair
  }

  /** Chip `i` is drawn as calls `2i` and `2i + 1`: its box at its packed
      position and size, bordered exactly when the chip is active, then its
      name inset into the box. */
  lemma {:induction false} ChipBlocksAt(chips: seq<Chip>, i: int)
    requires 0 <= i < |chips|
    ensures ChipBlocks(chips)[2 * i] == ChipBox(chips[i].x, chips[i].y, chips[i].width, chips[i].height, chips[i].active)
    ensures ChipBlocks(chips)[2 * i + 1] == TextBlock(chips[i].x + ChipTextInset, chips[i].y + ChipTextDrop, chips[i].name)
    decreases |chips|
  {
    var n := |chips| - 1;
    if i < n {
      ChipBlocksAt(chips[..n], i);
    }
  }

  /** On a laid-out card, the box of chip `i` is drawn at choice `i`'s packed
      position with that name's padded size, and carries the accent border
      exactly when choice `i` has the active choice's name; its label writes
      that name. */
  lemma CardChipBlocks(description: string, active: Choice, all: seq<Choice>, fonts: Fonts, i: int)
    requires 0 <= i < |all|
    ensures var c := LayoutCard(description, active, all, fonts);
      var box := ChipBlocks(c.chips)[2 * i];
      && box.ChipBox?
      && box.x == c.chips[i].x && box.y == c.chips[i].y
      && box.width == ChipWidth(fonts, all[i].name) && box.height == ChipHeight(fonts, all[i].name)
      && (box.bordered <==> all[i].name == active.name)
      && ChipBlocks(c.chips)[2 * i + 1] == TextBlock(box.x + ChipTextInset, box.y + ChipTextDrop, all[i].name)
  {
    var c := LayoutCard(description, active, all, fonts);
    ChipBlocksAt(c.chips, i);
    ChipContents(all, active.name, c.choicesTop, fonts, i);
  }

  /** One pro or con: the bullet at the entry's y, then its lines at the
      item indent, the first level with the bullet and each one line height
      below the last. It writes the bullet and then the lines. */
  function ItemBlocks(item: PlacedItem): (bs: seq<Block>)
    ensures |bs| == |item.lines| + 1
    ensures bs[0] == TextBlock(BulletX, item.y, Bullet)
    ensures Texts(bs) == [Bullet] + item.lines
    ensures forall k :: 0 < k < |bs| ==> bs[k].x == ItemTextX
    ensures |bs| > 1 ==> bs[1].y == item.y
    ensures forall k :: 1 < k < |bs| ==> bs[k].y == bs[k - 1].y + LineHeight
  {
    var bs := [TextBlock(BulletX, item.y, Bullet)]
      + seq(|item.lines|, k requires 0 <= k < |item.lines| => TextBlock(ItemTextX, item.y + LineHeight * k, item.lines[k]));
    TextsOfTextBlocks(bs, [Bullet] + item.lines);
    bs
  }

  /** What a list of placed entries writes: each entry's bullet and lines. */
  function ListTexts(items: seq<PlacedItem>): seq<string>
    decreases |items|
  {
    if |items| == 0 then [] else ListTexts(items[..|items| - 1]) + ([Bullet] + items[|items| - 1].lines)
  }

  /** A list of pros or cons: the entries one after the other. */
  function ListBlocks(items: seq<PlacedItem>): (bs: seq<Block>)
    ensures Texts(bs) == ListTexts(items)
    decreases |items|
  {
    if |items| == 0 then []
    else
      var prev := ListBlocks(items[..|items| - 1]);
      var last := ItemBlocks(items[|items| - 1]);
      TextsConcat(prev, last);
      prev + last
  }

  /** Every drawing call of a card, in the order the source makes them. */
  function Blocks(c: CardLayout, category: string, title: string): seq<Block> {
    [TextBlock(TextLeft, HeaderTop, category), LockIcon(LockX, HeaderTop, LockSize), TextBlock(TextLeft, TitleTop, title)]
      + DescriptionBlocks(c.descLines)
      + ChipBlocks(c.chips)
      + [TextBlock(TextLeft, c.prosTop, "Pros:")] + ListBlocks(c.pros)
      + [TextBlock(TextLeft, c.consTop, "Cons:")] + ListBlocks(c.cons)
  }

  /** Read in drawing order, a card writes its category, its title, the
      description lines, the chip names, the pros label, every pro's bullet
      and lines, the cons label, and every con's bullet and lines. */
  lemma CardTexts(c: CardLayout, category: string, title: string)
    ensures Texts(Blocks(c, category, title))
      == [category, title] + c.descLines + ChipNames(c.chips)
        + ["Pros:"] + ListTexts(c.pros) + ["Cons:"] + ListTexts(c.cons)
  {
    var head := [TextBlock(TextLeft, HeaderTop, category), LockIcon(LockX, HeaderTop, LockSize), TextBlock(TextLeft, TitleTop, title)];
    var desc, chips := DescriptionBlocks(c.descLines), ChipBlocks(c.chips);
    var prosLabel, pros := [TextBlock(TextLeft, c.prosTop, "Pros:")], ListBlocks(c.pros);
    var consLabel, cons := [TextBlock(TextLeft, c.consTop, "Cons:")], ListBlocks(c.cons);
    HeaderTexts(head, category, title);
    TextsOfTextBlocks(prosLabel, ["Pros:"]);
    TextsOfTextBlocks(consLabel, ["Cons:"]);
    TextsConcat(head, desc);
    TextsConcat(head + desc, chips);
    TextsConcat(head + desc + chips, prosLabel);
    TextsConcat(head + desc + chips + prosLabel, pros);
    TextsConcat(head + desc + chips + prosLabel + pros, consLabel);
    TextsConcat(head + desc + chips + prosLabel + pros + consLabel, cons);
  }

  /** The header writes the category and the title; the lock writes nothing. */
  lemma HeaderTexts(head: seq<Block>, category: string, title: string)
    requires head == [TextBlock(TextLeft, HeaderTop, category), LockIcon(LockX, HeaderTop, LockSize), TextBlock(TextLeft, TitleTop, title)]
    ensures Texts(head) == [category, title]
  {
    TextsOfTextBlocks(head[2..], [title]);
    assert head[1..][1..] == head[2..];
  }

  /** The chips of a laid-out card carry the names of all choices, in form
      order, so a card writes every choice's name. */
  lemma CardChipNames(description: string, active: Choice, all: seq<Choice>, fonts: Fonts)
    ensures var names := ChipNames(LayoutCard(description, active, all, fonts).chips);
      |names| == |all| && forall i :: 0 <= i < |all| ==> names[i] == all[i].name
  {
    var c := LayoutCard(description, active, all, fonts);
    forall i | 0 <= i < |all| ensures ChipNames(c.chips)[i] == all[i].name {
      ChipContents(all, active.name, c.choicesTop, fonts, i);
    }
  }

  /** Every block starts between `lo` and `hi`. */
  predicate TopsWithin(bs: seq<Block>, lo: int, hi: int) {
    forall i :: 0 <= i < |bs| ==> lo <= bs[i].y <= hi
  }

  lemma TopsWithinConcat(a: seq<Block>, b: seq<Block>, lo: int, hi: int)
    requires TopsWithin(a, lo, hi) && TopsWithin(b, lo, hi)
    ensures TopsWithin(a + b, lo, hi)
  {
    forall i | 0 <= i < |a + b| ensures lo <= (a + b)[i].y <= hi {
      if i >= |a| {
        assert (a + b)[i] == b[i - |a|];
      }
    }
  }

  lemma TopsWithinWiden(bs: seq<Block>, lo: int, hi: int, lo': int, hi': int)
    requires TopsWithin(bs, lo, hi) && lo' <= lo && hi <= hi'
    ensures TopsWithin(bs, lo', hi')
  {
  }

  lemma {:induction false} ChipBlocksWithin(chips: seq<Chip>, lo: int, hi: int)
    requires forall i :: 0 <= i < |chips| ==> lo <= chips[i].y && chips[i].y + ChipTextDrop <= hi
    ensures TopsWithin(ChipBlocks(chips), lo, hi)
    decreases |chips|
  {
    if |chips| > 0 {
      var n := |chips| - 1;
      ChipBlocksWithin(chips[..n], lo, hi);
      var c := chips[n];
      TopsWithinConcat(ChipBlocks(chips[..n]),
        [ChipBox(c.x, c.y, c.width, c.height, c.active), TextBlock(c.x + ChipTextInset, c.y + ChipTextDrop, c.name)], lo, hi);
    }
  }

  /** The bullet and every line of a placed entry lie between `lo` and
      `hi` when its bullet and its last line do. */
  lemma ItemBlocksWithin(item: PlacedItem, lo: int, hi: int)
    requires lo <= item.y <= hi
    requires item.y + LineHeight * (|item.lines| - 1) <= hi
    ensures TopsWithin(ItemBlocks(item), lo, hi)
  {
    var bs := ItemBlocks(item);
    forall j | 0 <= j < |bs| ensures lo <= bs[j].y <= hi {
      if j > 0 {
        assert bs[j] == TextBlock(ItemTextX, item.y + LineHeight * (j - 1), item.lines[j - 1]);
      }
    }
  }

  /** The blocks of a placed list lie between where the list starts and one
      line height below the cursor it leaves. */
  lemma {:induction false} ListBlocksWithin(entries: seq<string>, start: int, fonts: Fonts)
    ensures var run := PlaceItems(entries, start, fonts);
      run.endY >= start && TopsWithin(ListBlocks(run.items), start, run.endY + LineHeight)
    decreases |entries|
  {
    if |entries| > 0 {
      var n := |entries| - 1;
      ListBlocksWithin(entries[..n], start, fonts);
      var prev := PlaceItems(entries[..n], start, fonts);
      var run := PlaceItems(entries, start, fonts);
      var item := run.items[n];
      var hi := run.endY + LineHeight;
      assert run.items[..n] == prev.items;
      assert ListBlocks(run.items) == ListBlocks(prev.items) + ItemBlocks(item);
      assert item.y == prev.endY + ItemStep;
      assert run.endY == item.y + LineHeight * (|item.lines| - 1);
      TopsWithinWiden(ListBlocks(prev.items), start, prev.endY + LineHeight, start, hi);
      ItemBlocksWithin(item, start, hi);
      TopsWithinConcat(ListBlocks(prev.items), ItemBlocks(item), start, hi);
    }
  }

  /** Chip text heights are not negative, as for any real font. */
  predicate TextHeightsNonNegative(all: seq<Choice>, fonts: Fonts) {
    forall i :: 0 <= i < |all| ==> fonts.chipTextHeight(all[i].name) >= 0
  }

  lemma ChipsWithin(description: string, active: Choice, all: seq<Choice>, fonts: Fonts)
    requires TextHeightsNonNegative(all, fonts)
    ensures var c := LayoutCard(description, active, all, fonts);
      TopsWithin(ChipBlocks(c.chips), c.choicesTop, c.chipsBottom)
  {
    var c := LayoutCard(description, active, all, fonts);
    PackBottom(all, active.name, c.choicesTop, fonts);
    RowsDescend(all, active.name, c.choicesTop, fonts);
    forall i | 0 <= i < |c.chips|
      ensures c.choicesTop <= c.chips[i].y && c.chips[i].y + ChipTextDrop <= c.chipsBottom
    {
      ChipContents(all, active.name, c.choicesTop, fonts, i);
    }
    ChipBlocksWithin(c.chips, c.choicesTop, c.chipsBottom);
  }

  /** The sections follow one another down the card: the chips start below
      the description and end above the pros label, the pros label lies
      above the cons label and that above the card's end, and the
      background reaches the end of the content. */
  lemma SectionsInOrder(description: string, active: Choice, all: seq<Choice>, fonts: Fonts)
    ensures var c := LayoutCard(description, active, all, fonts);
      && DescriptionTop + LineHeight * |c.descLines| < c.choicesTop <= c.chipsBottom
      && c.prosTop == c.chipsBottom + BlockGap
      && c.prosTop < c.consTop < c.finalHeight
      && CardY + c.backgroundHeight >= c.finalHeight
  {
    var c := LayoutCard(description, active, all, fonts);
    PackBottom(all, active.name, c.choicesTop, fonts);
    CursorFormula(description, active, all, fonts);
  }

  /** Each list's drawing calls lie between its label and one line height
      below the cursor it leaves, which is one section gap above what
      follows. */
  lemma ListsWithin(description: string, active: Choice, all: seq<Choice>, fonts: Fonts)
    ensures var c := LayoutCard(description, active, all, fonts);
      && c.prosTop <= c.consTop - SectionGap
      && TopsWithin(ListBlocks(c.pros), c.prosTop, c.consTop - SectionGap + LineHeight)
      && c.consTop <= c.finalHeight - SectionGap
      && TopsWithin(ListBlocks(c.cons), c.consTop, c.finalHeight - SectionGap + LineHeight)
  {
    ProsWithin(description, active, all, fonts);
    ConsWithin(description, active, all, fonts);
  }

  /** The pros half of `ListsWithin`. */
  lemma ProsWithin(description: string, active: Choice, all: seq<Choice>, fonts: Fonts)
    ensures var c := LayoutCard(description, active, all, fonts);
      && c.prosTop <= c.consTop - SectionGap
      && TopsWithin(ListBlocks(c.pros), c.prosTop, c.consTop - SectionGap + LineHeight)
  {
    var c := LayoutCard(description, active, all, fonts);
    ListBlocksWithin(active.pros, c.prosTop, fonts);
  }

  /** The cons half of `ListsWithin`. */
  lemma ConsWithin(description: string, active: Choice, all: seq<Choice>, fonts: Fonts)
    ensures var c := LayoutCard(description, active, all, fonts);
      && c.consTop <= c.finalHeight - SectionGap
      && TopsWithin(ListBlocks(c.cons), c.consTop, c.finalHeight - SectionGap + LineHeight)
  {
    var c := LayoutCard(description, active, all, fonts);
    ListBlocksWithin(active.cons, c.consTop, fonts);
  }

  /** What the drawing bounds rest on: the sections in order, each one's
      calls within its own band, and a background reaching the content's end. */
  predicate WellLaidOut(c: CardLayout) {
    && DescriptionTop + LineHeight * |c.descLines| < c.choicesTop <= c.chipsBottom
    && c.prosTop == c.chipsBottom + BlockGap
    && c.prosTop <= c.consTop - SectionGap
    && c.consTop <= c.finalHeight - SectionGap
    && CardY + c.backgroundHeight >= c.finalHeight
    && TopsWithin(ChipBlocks(c.chips), c.choicesTop, c.chipsBottom)
    && TopsWithin(ListBlocks(c.pros), c.prosTop, c.consTop - SectionGap + LineHeight)
    && TopsWithin(ListBlocks(c.cons), c.consTop, c.finalHeight - SectionGap + LineHeight)
  }

  /** Every card `LayoutCard` produces is well laid out. */
  lemma LayoutCardWellLaidOut(description: string, active: Choice, all: seq<Choice>, fonts: Fonts)
    requires TextHeightsNonNegative(all, fonts)
    ensures WellLaidOut(LayoutCard(description, active, all, fonts))
  {
    SectionsInOrder(description, active, all, fonts);
    ChipsWithin(description, active, all, fonts);
    ListsWithin(description, active, all, fonts);
  }

  lemma AssembleWithin(head: seq<Block>, desc: seq<Block>, chips: seq<Block>, prosLabel: seq<Block>,
                       pros: seq<Block>, consLabel: seq<Block>, cons: seq<Block>, lo: int, hi: int)
    requires TopsWithin(head, lo, hi) && TopsWithin(desc, lo, hi) && TopsWithin(chips, lo, hi)
    requires TopsWithin(prosLabel, lo, hi) && TopsWithin(pros, lo, hi)
    requires TopsWithin(consLabel, lo, hi) && TopsWithin(cons, lo, hi)
    ensures TopsWithin(head + desc + chips + prosLabel + pros + consLabel + cons, lo, hi)
  {
    TopsWithinConcat(head, desc, lo, hi);
    TopsWithinConcat(head + desc, chips, lo, hi);
    TopsWithinConcat(head + desc + chips, prosLabel, lo, hi);
    TopsWithinConcat(head + desc + chips + prosLabel, pros, lo, hi);
    TopsWithinConcat(head + desc + chips + prosLabel + pros, consLabel, lo, hi);
    TopsWithinConcat(head + desc + chips + prosLabel + pros + consLabel, cons, lo, hi);
  }

  lemma DescriptionWithin(lines: seq<string>)
    ensures TopsWithin(DescriptionBlocks(lines), DescriptionTop, DescriptionTop + LineHeight * |lines|)
  {
  }

  /** The drawing calls of a well laid-out card lie between `CardY` and one
      line height above the bottom of its background. */
  lemma LaidOutWithin(c: CardLayout, category: string, title: string)
    requires WellLaidOut(c)
    ensures TopsWithin(Blocks(c, category, title), CardY, CardY + c.backgroundHeight - LineHeight)
  {
    var lo := CardY;
    var hi := CardY + c.backgroundHeight - LineHeight;
    var head := [TextBlock(TextLeft, HeaderTop, category), LockIcon(LockX, HeaderTop, LockSize), TextBlock(TextLeft, TitleTop, title)];
    var prosLabel := [TextBlock(TextLeft, c.prosTop, "Pros:")];
    var consLabel := [TextBlock(TextLeft, c.consTop, "Cons:")];
    DescriptionWithin(c.descLines);
    TopsWithinWiden(DescriptionBlocks(c.descLines), DescriptionTop, DescriptionTop + LineHeight * |c.descLines|, lo, hi);
    TopsWithinWiden(ChipBlocks(c.chips), c.choicesTop, c.chipsBottom, lo, hi);
    TopsWithinWiden(ListBlocks(c.pros), c.prosTop, c.consTop - SectionGap + LineHeight, lo, hi);
    TopsWithinWiden(ListBlocks(c.cons), c.consTop, c.finalHeight - SectionGap + LineHeight, lo, hi);
    AssembleWithin(head, DescriptionBlocks(c.descLines), ChipBlocks(c.chips), prosLabel, ListBlocks(c.pros),
                   consLabel, ListBlocks(c.cons), lo, hi);
  }

  /** Every drawing call starts inside the card: below its top edge and at
      least one line height above the bottom of the (possibly regrown)
      card background. */
  lemma BlocksInsideCard(description: string, category: string, title: string, active: Choice, all: seq<Choice>, fonts: Fonts)
    requires TextHeightsNonNegative(all, fonts)
    ensures var c := LayoutCard(description, active, all, fonts);
      TopsWithin(Blocks(c, category, title), CardY, CardY + c.backgroundHeight - LineHeight)
  {
    LayoutCardWellLaidOut(description, active, all, fonts);
    LaidOutWithin(LayoutCard(description, active, all, fonts), category, title);
  }

  /** The "Pros:" label is among a card's drawing calls, at the left text
      margin and the pros' cursor. */
  lemma ProsLabelDrawn(c: CardLayout, category: string, title: string)
    ensures TextBlock(TextLeft, c.prosTop, "Pros:") in Blocks(c, category, title)
  {
    var head := [TextBlock(TextLeft, HeaderTop, category), LockIcon(LockX, HeaderTop, LockSize), TextBlock(TextLeft, TitleTop, title)]
      + DescriptionBlocks(c.descLines) + ChipBlocks(c.chips);
    var tail := ListBlocks(c.pros) + [TextBlock(TextLeft, c.consTop, "Cons:")] + ListBlocks(c.cons);
    assert Blocks(c, category, title) == head + [TextBlock(TextLeft, c.prosTop, "Pros:")] + tail;
    assert Blocks(c, category, title)[|head|] == TextBlock(TextLeft, c.prosTop, "Pros:");
  }

  /** The "Cons:" label is among a card's drawing calls. */
  lemma ConsLabelDrawn(c: CardLayout, category: string, title: string)
    ensures TextBlock(TextLeft, c.consTop, "Cons:") in Blocks(c, category, title)
  {
    var head := [TextBlock(TextLeft, HeaderTop, category), LockIcon(LockX, HeaderTop, LockSize), TextBlock(TextLeft, TitleTop, title)]
      + DescriptionBlocks(c.descLines) + ChipBlocks(c.chips) + [TextBlock(TextLeft, c.prosTop, "Pros:")] + ListBlocks(c.pros);
    assert Blocks(c, category, title) == head + [TextBlock(TextLeft, c.consTop, "Cons:")] + ListBlocks(c.cons);
    assert Blocks(c, category, title)[|head|] == TextBlock(TextLeft, c.consTop, "Cons:");
  }

  /** The source keeps the canvas at 800 x 1200 even when it regrows the card
      background. With thirteen pros that are not blank, the "Cons:" label
      is placed below the canvas's bottom edge, and so is the end of the
      regrown background: both are cut off. */
  lemma ConsLabelBelowFixedCanvas(description: string, category: string, title: string, active: Choice, all: seq<Choice>, fonts: Fonts)
    requires |active.pros| >= 13
    requires forall i :: 0 <= i < |active.pros| ==> !AllSpace(active.pros[i])
    ensures var r := RenderCard(description, category, title, active, all, fonts);
      && r.layout.consTop > r.canvasHeight
      && TextBlock(TextLeft, r.layout.consTop, "Cons:") in r.blocks
      && CardY + r.layout.backgroundHeight > r.canvasHeight
  {
    ConsLabelDrawn(LayoutCard(description, active, all, fonts), category, title);
    var c := LayoutCard(description, active, all, fonts);
    CursorFormula(description, active, all, fonts);
    PackBottom(all, active.name, c.choicesTop, fonts);
    TotalAdvanceNonBlank(active.pros, fonts);
  }

  /** The canvas height the card needs: the nominal 1200, or more when the
      regrown background reaches further down. */
  function CanvasHeightFor(c: CardLayout): (h: int)
    ensures h >= CanvasHeight && h >= CardY + c.backgroundHeight
    ensures h == CanvasHeight || h == CardY + c.backgroundHeight
  {
    Max(CanvasHeight, CardY + c.backgroundHeight)
  }

  /** One card as `create_card_image` returns it: the drawing calls of its
      layout, on a canvas that stays 1200 tall whatever the content, so the
      regrown background runs past its bottom edge exactly when the content
      ends below it. */
  function RenderCard(description: string, category: string, title: string, active: Choice, all: seq<Choice>, fonts: Fonts)
    : (r: RenderedCard)
    ensures r.layout == LayoutCard(description, active, all, fonts)
    ensures r.blocks == Blocks(r.layout, category, title)
    ensures r.canvasHeight == CanvasHeight
    ensures CardY + r.layout.backgroundHeight > r.canvasHeight <==> r.layout.finalHeight > r.canvasHeight
  {
    var c := LayoutCard(description, active, all, fonts);
    RenderedCard(c, Blocks(c, category, title), CanvasHeight)
  }

  /** One card drawn on a canvas that grows with its background: the same
      drawing calls, on a canvas never smaller than the source's. */
  function RenderCardGrown(description: string, category: string, title: string, active: Choice, all: seq<Choice>, fonts: Fonts)
    : (r: RenderedCard)
    ensures r.layout == RenderCard(description, category, title, active, all, fonts).layout
    ensures r.blocks == RenderCard(description, category, title, active, all, fonts).blocks
    ensures r.canvasHeight >= CanvasHeight
  {
    var c := LayoutCard(description, active, all, fonts);
    RenderedCard(c, Blocks(c, category, title), CanvasHeightFor(c))
  }

  /** On the grown canvas every drawing call starts inside the canvas, at
      least one line height above its bottom edge, and the card background
      fits as well. */
  lemma RenderedBlocksOnCanvas(description: string, category: string, title: string, active: Choice, all: seq<Choice>, fonts: Fonts)
    requires TextHeightsNonNegative(all, fonts)
    ensures var r := RenderCardGrown(description, category, title, active, all, fonts);
      && TopsWithin(r.blocks, 0, r.canvasHeight - LineHeight)
      && CardY + r.layout.backgroundHeight <= r.canvasHeight
  {
    var c := LayoutCard(description, active, all, fonts);
    BlocksInsideCard(description, category, title, active, all, fonts);
    TopsWithinWiden(Blocks(c, category, title), CardY, CardY + c.backgroundHeight - LineHeight, 0, CanvasHeightFor(c) - LineHeight);
  }
}

=== FILE: entries.dfy ===
/** Saved decision entries: the in-memory map from a question title to the
    record `save_decision_entry` stores, and the loader that pre-fills the
    form from a selected record. */
module Entries {
  import opened Text
  import opened Card

  /** A field of a stored record: a plain string or the list of choices. */
  datatype Value = Str(s: string) | ChoiceList(choices: seq<Choice>)

  type Record = map<string, Value>

  /** `saved_entries`: question title to record. */
  type Store = map<string, Record>

  /** The values the form is pre-filled with. */
  datatype Entry = Entry(videoText: string, category: string, title: string, description: string, choices: seq<Choice>)

  /** Why reading a record failed: a key it lacks (Python's `KeyError`) or a
      field of the wrong kind. */
  datatype LoadError = MissingKey(key: string) | WrongType(key: string)

  /** The first option of the selection box, which stands for a blank form. */
  const NewEntry: string := "New Entry"

  /** The form's values when nothing is loaded. */
  const BlankEntry: Entry := Entry("", "", "", "", [])

  /** The record `save_decision_entry` builds: category, title, description
      and choices, and nothing else. */
  function SavedRecord(category: string, title: string, description: string, choices: seq<Choice>): (r: Record)
    ensures r.Keys == {"category", "title", "description", "choices"}
    ensures "video_text" !in r
    ensures r["category"] == Str(category) && r["title"] == Str(title)
    ensures r["description"] == Str(description) && r["choices"] == ChoiceList(choices)
  {
    map["category" := Str(category), "title" := Str(title), "description" := Str(description), "choices" := ChoiceList(choices)]
  }

  /** The store after `save_decision_entry`: the record is filed under its
      title, replacing any earlier entry with that title; every other entry
      is left alone. */
  function SaveDecisionEntry(store: Store, category: string, title: string, description: string, choices: seq<Choice>): (s: Store)
    ensures s.Keys == store.Keys + {title}
    ensures s[title] == SavedRecord(category, title, description, choices)
    ensures "video_text" !in s[title]
    ensures forall k :: k in store && k != title ==> s[k] == store[k]
  {
    store[title := SavedRecord(category, title, description, choices)]
  }

  /** `entry_data[key]` for a string field. */
  function StrField(r: Record, key: string): (v: Result<string, LoadError>)
    ensures v.Success? <==> key in r && r[key].Str?
    ensures v.Success? ==> r[key] == Str(v.value)
    ensures key !in r ==> v == Failure(MissingKey(key))
  {
    if key !in r then Failure(MissingKey(key))
    else if !r[key].Str? then Failure(WrongType(key))
    else Success(r[key].s)
  }

  /** `entry_data["choices"]`. */
  function ChoicesField(r: Record): (v: Result<seq<Choice>, LoadError>)
    ensures v.Success? <==> "choices" in r && r["choices"].ChoiceList?
    ensures v.Success? ==> r["choices"] == ChoiceList(v.value)
    ensures "choices" !in r ==> v == Failure(MissingKey("choices"))
  {
    if "choices" !in r then Failure(MissingKey("choices"))
    else if !r["choices"].ChoiceList? then Failure(WrongType("choices"))
    else Success(r["choices"].choices)
  }

  /** The loader as written: it reads `video_text` first, then category,
      title, description and choices, and stops at the first field it
      cannot read. */
  function LoadEntry(r: Record): (e: Result<Entry, LoadError>)
    ensures e.Success? ==> "video_text" in r && "category" in r && "title" in r && "description" in r && "choices" in r
    ensures e.Success? ==> && r["video_text"] == Str(e.value.videoText) && r["category"] == Str(e.value.category)
                           && r["title"] == Str(e.value.title) && r["description"] == Str(e.value.description)
                           && r["choices"] == ChoiceList(e.value.choices)
    ensures e.Failure? <==> !Loadable(r)
    ensures "video_text" !in r ==> e == Failure(MissingKey("video_text"))
  {
    var v := StrField(r, "video_text");
    if v.Failure? then Failure(v.error)
    else
      var c := StrField(r, "category");
      if c.Failure? then Failure(c.error)
      else
        var t := StrField(r, "title");
        if t.Failure? then Failure(t.error)
        else
          var d := StrField(r, "description");
          if d.Failure? then Failure(d.error)
          else
            var cs := ChoicesField(r);
            if cs.Failure? then Failure(cs.error)
            else Success(Entry(v.value, c.value, t.value, d.value, cs.value))
  }

  /** A record holding all five fields with the right kinds. */
  predicate Loadable(r: Record) {
    && "video_text" in r && r["video_text"].Str?
    && "category" in r && r["category"].Str?
    && "title" in r && r["title"].Str?
    && "description" in r && r["description"].Str?
    && "choices" in r && r["choices"].ChoiceList?
  }

  /** The form's starting values. The selection box offers "New Entry"
      followed by the keys of the store, and the choice is compared with
      "New Entry" as a string, so a question saved under that very title
      also gives the blank form. Any other selection loads its record: it
      succeeds exactly when the record is loadable, and the form then shows
      that record's fields. */
  function SelectEntry(store: Store, selected: string): (e: Result<Entry, LoadError>)
    requires selected == NewEntry || selected in store
    ensures selected == NewEntry ==> e == Success(BlankEntry)
    ensures selected != NewEntry ==> (e.Success? <==> Loadable(store[selected]))
    ensures selected != NewEntry && e.Success? ==>
      && store[selected]["video_text"] == Str(e.value.videoText)
      && store[selected]["category"] == Str(e.value.category)
      && store[selected]["title"] == Str(e.value.title)
      && store[selected]["description"] == Str(e.value.description)
      && store[selected]["choices"] == ChoiceList(e.value.choices)
    ensures selected != NewEntry && "video_text" !in store[selected] ==> e == Failure(MissingKey("video_text"))
  {
    if selected == NewEntry then Success(BlankEntry) else LoadEntry(store[selected])
  }

  /** Every entry the saver writes makes the loader fail on its first read:
      selecting it raises `KeyError: 'video_text'`. */
  lemma SavedEntryNeverLoads(store: Store, category: string, title: string, description: string, choices: seq<Choice>)
    requires title != NewEntry
    ensures var s := SaveDecisionEntry(store, category, title, description, choices);
      SelectEntry(s, title) == Failure(MissingKey("video_text"))
  {
  }

  /** A question titled "New Entry" is filed like any other, but selecting
      it shows the blank form rather than the saved one. */
  lemma SentinelTitleShowsBlank(store: Store, category: string, description: string, choices: seq<Choice>)
    ensures var s := SaveDecisionEntry(store, category, NewEntry, description, choices);
      && NewEntry in s
      && SelectEntry(s, NewEntry) == Success(BlankEntry)
  {
  }

  /** The record the loader can read back: the saved fields plus the
      overlay text. */
  function EntryRecord(e: Entry): (r: Record)
    ensures r.Keys == {"video_text", "category", "title", "description", "choices"}
    ensures Loadable(r)
    ensures r["video_text"] == Str(e.videoText) && r["category"] == Str(e.category) && r["title"] == Str(e.title)
    ensures r["description"] == Str(e.description) && r["choices"] == ChoiceList(e.choices)
  {
    SavedRecord(e.category, e.title, e.description, e.choices)["video_text" := Str(e.videoText)]
  }

  /** Saving with the overlay text stored as well: the entry is filed under
      its title and every other entry is left alone. */
  function SaveEntry(store: Store, e: Entry): (s: Store)
    ensures s.Keys == store.Keys + {e.title}
    ensures s[e.title] == EntryRecord(e)
    ensures forall k :: k in store && k != e.title ==> s[k] == store[k]
  {
    store[e.title := EntryRecord(e)]
  }

  /** Selecting a saved entry gives back exactly what was saved. */
  lemma SaveEntryLoads(store: Store, e: Entry)
    requires e.title != NewEntry
    ensures SelectEntry(SaveEntry(store, e), e.title) == Success(e)
  {
  }

  /** A later save under another title does not disturb an entry that
      loads. */
  lemma SaveKeepsOtherEntries(store: Store, e: Entry, key: string)
    requires key in store && key != e.title
    ensures SelectEntry(SaveEntry(store, e), key) == SelectEntry(store, key)
  {
  }

  /** The number of choice slots the form opens with: one per saved choice,
      or three when there are none. */
  function DefaultChoiceCount(saved: seq<Choice>): (n: int)
    ensures n >= 1
    ensures |saved| > 0 ==> n == |saved|
    ensures |saved| == 0 ==> n == 3
  {
    var length := if |saved| > 0 then |saved| else 3;
    Max(1, length)
  }

  /** Slot `i` of the refilled form: the saved name and the saved pros and
      cons joined with newlines, parsed again as the text areas are; an
      empty choice past the saved ones. */
  function RefillSlot(saved: seq<Choice>, i: nat): (c: Choice)
    ensures WellFormedChoice(c)
    ensures i < |saved| ==> c.name == saved[i].name
    ensures i >= |saved| ==> c == Choice("", [], [])
  {
    if i < |saved| then ChoiceFromForm(saved[i].name, JoinLines(saved[i].pros), JoinLines(saved[i].cons))
    else ChoiceFromForm("", "", "")
  }

  /** The choices the form rebuilds from `count` slots: every slot holds
      well-formed items; a slot with a saved choice behind it keeps that
      choice's name; the slots past the saved choices are empty. */
  function RefillChoices(saved: seq<Choice>, count: nat): (cs: seq<Choice>)
    ensures |cs| == count
    ensures forall i :: 0 <= i < count ==> WellFormedChoice(cs[i])
    ensures forall i :: 0 <= i < count && i < |saved| ==> cs[i].name == saved[i].name
    ensures forall i :: |saved| <= i < count ==> cs[i] == Choice("", [], [])
  {
    seq(count, i requires 0 <= i < count => RefillSlot(saved, i))
  }

  /** A well-formed saved choice comes back unchanged from its slot. */
  lemma RefillSlotRoundTrip(saved: seq<Choice>, i: nat)
    requires i < |saved| && WellFormedChoice(saved[i])
    ensures RefillSlot(saved, i) == saved[i]
  {
    ParseJoinItems(saved[i].pros);
    ParseJoinItems(saved[i].cons);
  }

  /** Refilling from well-formed saved choices, with no more slots than
      saved choices, reproduces those choices. */
  lemma RefillRoundTrip(saved: seq<Choice>, count: nat)
    requires count <= |saved|
    requires forall i :: 0 <= i < |saved| ==> WellFormedChoice(saved[i])
    ensures RefillChoices(saved, count) == saved[..count]
  {
    forall i | 0 <= i < count ensures RefillChoices(saved, count)[i] == saved[i] {
      RefillSlotRoundTrip(saved, i);
    }
  }

  /** A saved entry whose choices came from the form opens with every one of
      its choices restored, in order. */
  lemma LoadedChoicesRestored(store: Store, e: Entry)
    requires e.title != NewEntry
    requires |e.choices| > 0
    requires forall i :: 0 <= i < |e.choices| ==> WellFormedChoice(e.choices[i])
    ensures var loaded := SelectEntry(SaveEntry(store, e), e.title);
      && loaded.Success?
      && RefillChoices(loaded.value.choices, DefaultChoiceCount(loaded.value.choices)) == e.choices
  {
    SaveEntryLoads(store, e);
    RefillRoundTrip(e.choices, |e.choices|);
    assert e.choices[..|e.choices|] == e.choices;
  }
}

=== FILE: generate.dfy ===
/** The "Generate Video" action: the name gate, one card per named choice,
    and the timeline the cards are placed on. Times are in tenths of a
    second, so the source's 0.5 s and 1.5 s are exact. */
module Generate {
  import opened Text
  import opened Card
  import opened Layout
  import opened Drawing

  /** Every choice has a non-empty name. */
  predicate AllNamed(choices: seq<Choice>) {
    forall i :: 0 <= i < |choices| ==> choices[i].name != ""
  }

  /** The choices the card loop draws: those with a name, in order. */
  function NamedChoices(pending: seq<Choice>): (named: seq<Choice>)
    ensures |named| <= |pending|
    ensures AllNamed(named)
    ensures multiset(named) <= multiset(pending)
  {
    if |pending| == 0 then []
    else
      assert pending == [pending[0]] + pending[1..];
      Drawn(pending[0]) + NamedChoices(pending[1..])
  }

  /** What the loop draws for one choice: the choice itself if it has a
      name, nothing otherwise. */
  function Drawn(c: Choice): (drawn: seq<Choice>)
    ensures |drawn| <= 1 && multiset(drawn) <= multiset{c}
    ensures drawn != [] <==> c.name != ""
  {
    if c.name != "" then [c] else []
  }

  /** The filter works choice by choice and keeps form order: the choices
      drawn from two runs of the form, one after the other, are those drawn
      from the first run followed by those drawn from the second. */
  lemma {:induction false} NamedChoicesConcat(a: seq<Choice>, b: seq<Choice>)
    ensures NamedChoices(a + b) == NamedChoices(a) + NamedChoices(b)
    decreases |a|
  {
    if |a| == 0 {
      assert a + b == b;
    } else {
      NamedChoicesConcat(a[1..], b);
      NamedChoicesConcatStep(a, b);
    }
  }

  /** The inductive step of `NamedChoicesConcat`: the first choice of `a`. */
  lemma NamedChoicesConcatStep(a: seq<Choice>, b: seq<Choice>)
    requires |a| > 0
    requires NamedChoices(a[1..] + b) == NamedChoices(a[1..]) + NamedChoices(b)
    ensures NamedChoices(a + b) == NamedChoices(a) + NamedChoices(b)
  {
    ConsOfConcat(a, b);
    NamedChoicesFront(a + b);
    NamedChoicesFront(a);
    Regroup(NamedChoices(a + b), Drawn(a[0]), NamedChoices(a[1..]), NamedChoices(b), NamedChoices(a[1..] + b));
  }

  /** The loop's first step: the first choice's contribution, then the rest. */
  lemma NamedChoicesFront(p: seq<Choice>)
    requires |p| > 0
    ensures NamedChoices(p) == Drawn(p[0]) + NamedChoices(p[1..])
  {
  }

  /** Every choice with a name is drawn. */
  lemma NamedChoicesKeepsNamed(pending: seq<Choice>, i: int)
    requires 0 <= i < |pending| && pending[i].name != ""
    ensures pending[i] in NamedChoices(pending)
  {
    var rest := pending[i..];
    assert pending == pending[..i] + rest;
    assert rest[1..] == pending[i + 1..];
    NamedChoicesConcat(pending[..i], rest);
  }

  /** When every choice is named, the loop draws every one of them. */
  lemma {:induction false} NamedChoicesAll(pending: seq<Choice>)
    requires AllNamed(pending)
    ensures NamedChoices(pending) == pending
    decreases |pending|
  {
    if |pending| > 0 {
      assert AllNamed(pending[1..]) by {
        forall i | 0 <= i < |pending| - 1 ensures pending[1..][i].name != "" {
          assert pending[1..][i] == pending[i + 1];
        }
      }
      NamedChoicesAll(pending[1..]);
      assert pending == [pending[0]] + pending[1..];
    }
  }

  /** One card per drawn choice, that choice active, all choices in the
      chip row. */
  function DrawCards(description: string, category: string, title: string, named: seq<Choice>,
                     all: seq<Choice>, fonts: Fonts): (cards: seq<RenderedCard>)
    ensures |cards| == |named|
    ensures forall i :: 0 <= i < |named| ==>
      && cards[i].layout == LayoutCard(description, named[i], all, fonts)
      && cards[i].blocks == Blocks(cards[i].layout, category, title)
      && cards[i].canvasHeight == CanvasHeight
  {
    seq(|named|, i requires 0 <= i < |named| => RenderCard(description, category, title, named[i], all, fonts))
  }

  /** What the button yields: the error message when a choice has no name,
      otherwise the cards handed to the video builder, one per choice in
      form order. */
  function GenerateCards(description: string, category: string, title: string, choices: seq<Choice>, fonts: Fonts)
    : (r: Result<seq<RenderedCard>, string>)
    ensures r.Failure? <==> exists i :: 0 <= i < |choices| && choices[i].name == ""
    ensures r.Failure? ==> r.error == "All choices must have a name"
    ensures r.Success? ==> |r.value| == |choices|
    ensures r.Success? ==> forall i :: 0 <= i < |choices| ==>
      r.value[i] == RenderCard(description, category, title, choices[i], choices, fonts)
    ensures r.Success? ==> forall i :: 0 <= i < |choices| ==> r.value[i].canvasHeight == CanvasHeight
  {
    if !AllNamed(choices) then Failure("All choices must have a name")
    else
      NamedChoicesAll(choices);
      Success(DrawCards(description, category, title, NamedChoices(choices), choices, fonts))
  }

  /** Seconds in tenths: each card is shown 1.5 s; the first card appears
      after 0.5 s and fades in over 0.8 s. */
  const CardDuration: int := 15
  const FirstCardDelay: int := 5
  const FirstCardFade: int := 8
  /** Only the first three cards make it into the video. */
  const MaxCards: int := 3

  /** One card's place on the timeline. */
  datatype Slot = Slot(start: int, duration: int, fadeIn: int)

  /** Card `idx` starts `idx` card durations in, except the first, which
      starts after the delay and fades in. */
  function SlotFor(idx: nat): (slot: Slot)
    ensures slot.duration == CardDuration
    ensures slot.fadeIn > 0 <==> idx == 0
    ensures idx >= 2 ==> slot.start == SlotFor(idx - 1).start + CardDuration
    ensures idx == 1 ==> slot.start == SlotFor(0).start - FirstCardDelay + CardDuration
  {
    if idx == 0 then Slot(FirstCardDelay, CardDuration, FirstCardFade)
    else Slot(CardDuration * idx, CardDuration, 0)
  }

  /** The number of cards the video keeps. */
  function ShownCount(n: nat): (k: nat)
    ensures k <= n && k <= MaxCards
    ensures k == n || k == MaxCards
  {
    if n < MaxCards then n else MaxCards
  }

  /** The timeline of a video made from `n` cards: one slot per kept card,
      each 1.5 s long, only the first fading in, and none ending later than
      half a second after the overlay text. */
  function Schedule(n: nat): (slots: seq<Slot>)
    ensures |slots| == ShownCount(n)
    ensures forall i :: 0 <= i < |slots| ==> slots[i].duration == CardDuration && (slots[i].fadeIn > 0 <==> i == 0)
    ensures forall i :: 0 <= i < |slots| ==>
      0 < slots[i].start && slots[i].start + slots[i].duration <= TotalDuration(n) + FirstCardDelay
  {
    seq(ShownCount(n), i requires 0 <= i < ShownCount(n) => SlotFor(i))
  }

  /** The overlay text is shown for 1.5 s per kept card: it ends exactly
      when the last kept card ends if there are two or more, lasts one card's
      time for a single card, and is absent without cards. */
  function TotalDuration(n: nat): (t: int)
    ensures 0 <= t <= CardDuration * MaxCards
    ensures ShownCount(n) >= 2 ==> t == SlotFor(ShownCount(n) - 1).start + CardDuration
    ensures ShownCount(n) == 1 ==> t == CardDuration
    ensures t == 0 <==> n == 0
  {
    CardDuration * ShownCount(n)
  }

  /** After the first, each kept card starts exactly when the one before it
      ends; every card after the first ends by the end of the overlay text. */
  lemma ScheduleBackToBack(n: nat)
    ensures var slots := Schedule(n);
      && (forall i :: 1 <= i < |slots| - 1 ==> slots[i].start + slots[i].duration == slots[i + 1].start)
      && (forall i :: 1 <= i < |slots| ==> slots[i].start + slots[i].duration <= TotalDuration(n))
  {
  }

  /** The first card's delay is not paid for: it ends half a second after
      the second card appears, and a single card outlasts the overlay text
      by the same half second. */
  lemma FirstCardOverlaps(n: nat)
    requires n >= 1
    ensures var slots := Schedule(n);
      && slots[0].start + slots[0].duration == FirstCardDelay + CardDuration
      && (|slots| >= 2 ==> slots[0].start + slots[0].duration == slots[1].start + FirstCardDelay)
      && (|slots| == 1 ==> slots[0].start + slots[0].duration == TotalDuration(n) + FirstCardDelay)
  {
  }
}

=== FILE: layout.dfy ===
/** The vertical layout of one card: a y-cursor threaded from the
    description through the chip rows, the pros and the cons, ending in the
    height the card must have, and the decision to regrow the card
    background when the content runs past it. */
module Layout {
  import opened Text
  import opened Card
  import opened Wrap
  import opened Chips

  /** The first description line; the chips start one line gap below the
      last one. */
  const DescriptionTop: int := CardY + 170
  const BlockGap: int := 40
  /** Each pro or con starts this far below the end of the previous one. */
  const ItemStep: int := 50
  /** The cons label sits this far below the end of the pros, and the card
      ends this far below the end of the cons. */
  const SectionGap: int := 80

  /** A placed pro or con: its bullet's y and its wrapped lines; line `k`
      is drawn `k` line heights below the bullet. */
  datatype PlacedItem = PlacedItem(text: string, y: int, lines: seq<string>)

  /** A placed list of pros or cons and the cursor `item_y` it leaves. */
  datatype ItemRun = ItemRun(items: seq<PlacedItem>, endY: int)

  /** The y-positions of one card, top to bottom. */
  datatype CardLayout = CardLayout(
    descLines: seq<string>,
    choicesTop: int,
    chips: seq<Chip>,
    chipsBottom: int,
    prosTop: int,
    pros: seq<PlacedItem>,
    consTop: int,
    cons: seq<PlacedItem>,
    finalHeight: int,
    backgroundHeight: int)

  /** A pro or con wrapped to the item width. */
  function ItemLines(entry: string, fonts: Fonts): seq<string> {
    WrapText(entry, fonts.item, ItemWidth)
  }

  /** How far one entry moves the cursor: the step to its bullet, then one
      line height per line after the first (a blank entry, with no lines,
      moves it back by one line height). */
  function ItemAdvance(lines: seq<string>): int {
    ItemStep + LineHeight * (|lines| - 1)
  }

  /** The cursor movement of a whole list, summed entry by entry: at least
      10 per entry, since even a blank entry steps 50 down and 40 back. */
  function TotalAdvance(entries: seq<string>, fonts: Fonts): (total: int)
    ensures total >= 10 * |entries|
    decreases |entries|
  {
    if |entries| == 0 then 0
    else TotalAdvance(entries[..|entries| - 1], fonts) + ItemAdvance(ItemLines(entries[|entries| - 1], fonts))
  }

  /** The pros (or cons) loop: step down to the bullet, wrap the entry, then
      move the cursor to the entry's last line. */
  function PlaceItems(entries: seq<string>, start: int, fonts: Fonts): (run: ItemRun)
    ensures |run.items| == |entries|
    decreases |entries|
  {
    if |entries| == 0 then ItemRun([], start)
    else
      var n := |entries| - 1;
      var prev := PlaceItems(entries[..n], start, fonts);
      var y := prev.endY + ItemStep;
      var lines := ItemLines(entries[n], fonts);
      ItemRun(prev.items + [PlacedItem(entries[n], y, lines)], y + LineHeight * (|lines| - 1))
  }

  /** The height of the card background: the nominal height, or, when the
      content ends below the nominal card, enough to reach the content's end. */
  function BackgroundHeight(finalHeight: int): (h: int)
    ensures h >= CardHeight
    ensures h > CardHeight <==> finalHeight > CardY + CardHeight
    ensures CardY + h >= finalHeight
    ensures h > CardHeight ==> CardY + h == finalHeight
  {
    if finalHeight > CardY + CardHeight then finalHeight - CardY else CardHeight
  }

  /** Where the chips start below `lineCount` description lines. */
  function ChoicesTop(lineCount: int): int {
    DescriptionTop + LineHeight * lineCount + BlockGap
  }

  /** The card for `active`, with a chip for every choice in `all`. The
      description's words are all drawn, in order, and there are none to
      draw exactly when it is blank; every choice gets a chip and every pro
      and con a place. */
  function LayoutCard(description: string, active: Choice, all: seq<Choice>, fonts: Fonts): (c: CardLayout)
    ensures LineWords(c.descLines) == Words(description)
    ensures c.descLines == [] <==> AllSpace(description)
    ensures |c.chips| == |all| && |c.pros| == |active.pros| && |c.cons| == |active.cons|
  {
    LayoutLines(WrapText(description, fonts.desc, DescriptionWidth), active, all, fonts)
  }

  /** The cursor threaded below an already wrapped description: the chips
      start a gap below the last line, the pros label a gap below the lowest
      chip, the cons label a section gap below the pros' summed advance, and
      the card ends a section gap below the cons. */
  function LayoutLines(descLines: seq<string>, active: Choice, all: seq<Choice>, fonts: Fonts): (c: CardLayout)
    ensures c.descLines == descLines
    ensures |c.chips| == |all| && |c.pros| == |active.pros| && |c.cons| == |active.cons|
  {
    var choicesTop := ChoicesTop(|descLines|);
    var packing := Pack(all, active.name, choicesTop, fonts);
    var prosTop := packing.maxY + BlockGap;
    var pros := PlaceItems(active.pros, prosTop, fonts);
    var consTop := pros.endY + SectionGap;
    var cons := PlaceItems(active.cons, consTop, fonts);
    var finalHeight := cons.endY + SectionGap;
    CardLayout(descLines, choicesTop, packing.chips, packing.maxY, prosTop, pros.items,
               consTop, cons.items, finalHeight, BackgroundHeight(finalHeight))
  }

  /** A placed list ends its summed advance below where it started. */
  lemma {:induction false} PlaceItemsEnd(entries: seq<string>, start: int, fonts: Fonts)
    ensures PlaceItems(entries, start, fonts).endY == start + TotalAdvance(entries, fonts)
    decreases |entries|
  {
    if |entries| > 0 {
      PlaceItemsEnd(entries[..|entries| - 1], start, fonts);
    }
  }

  /** Placing more entries never moves the ones already placed. */
  lemma {:induction false} PlaceItemsPrefix(entries: seq<string>, start: int, fonts: Fonts, k: nat)
    requires k <= |entries|
    ensures PlaceItems(entries, start, fonts).items[..k] == PlaceItems(entries[..k], start, fonts).items
    decreases |entries|
  {
    if k < |entries| {
      var n := |entries| - 1;
      assert entries[..n][..k] == entries[..k];
      PlaceItemsPrefix(entries[..n], start, fonts, k);
      var prev := PlaceItems(entries[..n], start, fonts).items;
      var all := PlaceItems(entries, start, fonts).items;
      assert all[..n] == prev;
      assert all[..k] == prev[..k];
    } else {
      assert entries[..k] == entries;
    }
  }

  /** Entry `i` of a placed list shows entry `i` wrapped to the item width,
      its bullet one step below the summed advance of the entries before it. */
  lemma PlacedItemShape(entries: seq<string>, start: int, fonts: Fonts, i: int)
    requires 0 <= i < |entries|
    ensures var item := PlaceItems(entries, start, fonts).items[i];
      && item.text == entries[i]
      && item.lines == ItemLines(entries[i], fonts)
      && item.y == start + TotalAdvance(entries[..i], fonts) + ItemStep
  {
    PlaceItemsPrefix(entries, start, fonts, i + 1);
    var prefix := entries[..i + 1];
    assert prefix[..i] == entries[..i];
    assert PlaceItems(prefix, start, fonts).items[i] == PlaceItems(entries, start, fonts).items[i];
    PlaceItemsEnd(entries[..i], start, fonts);
  }

  /** Every entry moves the cursor down by at least 10; an entry that is not
      blank, by at least one full step. */
  lemma ItemAdvanceBounds(entry: string, fonts: Fonts)
    ensures ItemAdvance(ItemLines(entry, fonts)) >= ItemStep - LineHeight
    ensures !AllSpace(entry) ==> ItemAdvance(ItemLines(entry, fonts)) >= ItemStep
  {
  }

  /** A list of entries none of which is blank moves the cursor down by at
      least one full step per entry. */
  lemma {:induction false} TotalAdvanceNonBlank(entries: seq<string>, fonts: Fonts)
    requires forall i :: 0 <= i < |entries| ==> !AllSpace(entries[i])
    ensures TotalAdvance(entries, fonts) >= 50 * |entries|
    decreases |entries|
  {
    if |entries| > 0 {
      var n := |entries| - 1;
      var init := entries[..n];
      assert forall i :: 0 <= i < n ==> init[i] == entries[i];
      TotalAdvanceNonBlank(init, fonts);
      ItemAdvanceBounds(entries[n], fonts);
    }
  }

  /** The cursor arithmetic in closed form: the chips start one line gap
      below the description's last line, the pros label one gap below the
      lowest chip, the cons label one section gap below the pros' summed
      advance, and the card ends one section gap below the cons. */
  lemma CursorFormula(description: string, active: Choice, all: seq<Choice>, fonts: Fonts)
    ensures var c := LayoutCard(description, active, all, fonts);
      && c.choicesTop == CardY + 170 + LineHeight * |WrapText(description, fonts.desc, DescriptionWidth)| + BlockGap
      && c.chipsBottom == Pack(all, active.name, c.choicesTop, fonts).maxY
      && c.prosTop == c.chipsBottom + BlockGap
      && c.consTop == c.prosTop + TotalAdvance(active.pros, fonts) + SectionGap
      && c.finalHeight == c.consTop + TotalAdvance(active.cons, fonts) + SectionGap
  {
    var c := LayoutCard(description, active, all, fonts);
    PlaceItemsEnd(active.pros, c.prosTop, fonts);
    PlaceItemsEnd(active.cons, c.consTop, fonts);
  }

  /** The card is at least as tall as its gaps, one line height per
      description line and 10 per pro or con make it. */
  lemma LayoutCardMinHeight(description: string, active: Choice, all: seq<Choice>, fonts: Fonts)
    ensures var c := LayoutCard(description, active, all, fonts);
      c.finalHeight >= DescriptionTop + LineHeight * |c.descLines| + 2 * BlockGap + 2 * SectionGap
        + 10 * (|active.pros| + |active.cons|)
  {
    var c := LayoutCard(description, active, all, fonts);
    PackBelowTop(all, active.name, c.choicesTop, fonts);
    FinalHeightFormula(description, active, all, fonts);
  }

  /** The card's height, once the chips are placed, depends only on how far
      the pros and cons advance the cursor. */
  lemma FinalHeightFormula(description: string, active: Choice, all: seq<Choice>, fonts: Fonts)
    ensures var c := LayoutCard(description, active, all, fonts);
      c.finalHeight == c.chipsBottom + 2 * SectionGap + BlockGap
        + TotalAdvance(active.pros, fonts) + TotalAdvance(active.cons, fonts)
  {
    CursorFormula(description, active, all, fonts);
  }

  lemma TotalAdvanceAppend(entries: seq<string>, extra: string, fonts: Fonts)
    ensures TotalAdvance(entries + [extra], fonts) == TotalAdvance(entries, fonts) + ItemAdvance(ItemLines(extra, fonts))
  {
    assert (entries + [extra])[..|entries|] == entries;
  }

  /** Adding a pro, everything else fixed, makes the card exactly that pro's
      advance taller: at least 10, and at least 50 when the pro is not blank. */
  lemma AppendProGrows(description: string, active: Choice, extra: string, all: seq<Choice>, fonts: Fonts)
    ensures var before := LayoutCard(description, active, all, fonts).finalHeight;
      var after := LayoutCard(description, active.(pros := active.pros + [extra]), all, fonts).finalHeight;
      && after == before + ItemAdvance(ItemLines(extra, fonts))
      && after >= before + ItemStep - LineHeight
      && (!AllSpace(extra) ==> after >= before + ItemStep)
  {
    FinalHeightFormula(description, active, all, fonts);
    FinalHeightFormula(description, active.(pros := active.pros + [extra]), all, fonts);
    TotalAdvanceAppend(active.pros, extra, fonts);
    ItemAdvanceBounds(extra, fonts);
  }

  /** Adding a con behaves the same way. */
  lemma AppendConGrows(description: string, active: Choice, extra: string, all: seq<Choice>, fonts: Fonts)
    ensures var before := LayoutCard(description, active, all, fonts).finalHeight;
      var after := LayoutCard(description, active.(cons := active.cons + [extra]), all, fonts).finalHeight;
      && after == before + ItemAdvance(ItemLines(extra, fonts))
      && after >= before + ItemStep - LineHeight
      && (!AllSpace(extra) ==> after >= before + ItemStep)
  {
    FinalHeightFormula(description, active, all, fonts);
    FinalHeightFormula(description, active.(cons := active.cons + [extra]), all, fonts);
    TotalAdvanceAppend(active.cons, extra, fonts);
    ItemAdvanceBounds(extra, fonts);
  }

  /** Two descriptions, everything else fixed: each extra wrapped line makes
      the card exactly one line height taller, and moves every chip down by
      the same amount. */
  lemma DescriptionLinesShift(d1: string, d2: string, active: Choice, all: seq<Choice>, fonts: Fonts)
    ensures var a := LayoutCard(d1, active, all, fonts);
      var b := LayoutCard(d2, active, all, fonts);
      var delta := LineHeight * (|b.descLines| - |a.descLines|);
      && b.finalHeight == a.finalHeight + delta
      && b.chipsBottom == a.chipsBottom + delta
      && ChipsShifted(a.chips, b.chips, delta)
  {
    LinesShift(WrapText(d1, fonts.desc, DescriptionWidth), WrapText(d2, fonts.desc, DescriptionWidth), active, all, fonts);
  }

  /** The same shift, stated for two wrapped descriptions. */
  lemma LinesShift(l1: seq<string>, l2: seq<string>, active: Choice, all: seq<Choice>, fonts: Fonts)
    ensures var a := LayoutLines(l1, active, all, fonts);
      var b := LayoutLines(l2, active, all, fonts);
      var delta := LineHeight * (|l2| - |l1|);
      && b.finalHeight == a.finalHeight + delta
      && b.chipsBottom == a.chipsBottom + delta
      && ChipsShifted(a.chips, b.chips, delta)
  {
    LinesShiftBottom(l1, l2, active, all, fonts);
    LinesShiftChips(l1, l2, active, all, fonts);
  }

  /** The height part of `LinesShift`. */
  lemma LinesShiftBottom(l1: seq<string>, l2: seq<string>, active: Choice, all: seq<Choice>, fonts: Fonts)
    ensures var a := LayoutLines(l1, active, all, fonts);
      var b := LayoutLines(l2, active, all, fonts);
      var delta := LineHeight * (|l2| - |l1|);
      && b.finalHeight == a.finalHeight + delta
      && b.chipsBottom == a.chipsBottom + delta
  {
    LinesShiftMax(l1, l2, active, all, fonts);
    LinesFinalHeight(l1, active, all, fonts);
    LinesFinalHeight(l2, active, all, fonts);
  }

  /** The chips' running bottom moves with the first row. */
  lemma LinesShiftMax(l1: seq<string>, l2: seq<string>, active: Choice, all: seq<Choice>, fonts: Fonts)
    ensures var a := LayoutLines(l1, active, all, fonts);
      var b := LayoutLines(l2, active, all, fonts);
      b.chipsBottom == a.chipsBottom + LineHeight * (|l2| - |l1|)
  {
    LinesChips(l1, active, all, fonts);
    LinesChips(l2, active, all, fonts);
    ChipsBottomShift(all, active.name, |l1|, |l2|, fonts);
  }

  /** The chips part of `LinesShift`. */
  lemma LinesShiftChips(l1: seq<string>, l2: seq<string>, active: Choice, all: seq<Choice>, fonts: Fonts)
    ensures var a := LayoutLines(l1, active, all, fonts);
      var b := LayoutLines(l2, active, all, fonts);
      ChipsShifted(a.chips, b.chips, LineHeight * (|l2| - |l1|))
  {
    LinesChips(l1, active, all, fonts);
    LinesChips(l2, active, all, fonts);
    ChipsRowShift(all, active.name, |l1|, |l2|, fonts);
  }

  /** The chips of a card are the packing below its description. */
  lemma LinesChips(lines: seq<string>, active: Choice, all: seq<Choice>, fonts: Fonts)
    ensures var c := LayoutLines(lines, active, all, fonts);
      var p := Pack(all, active.name, ChoicesTop(|lines|), fonts);
      c.chips == p.chips && c.chipsBottom == p.maxY
  {
  }

  /** The chips' running bottom below `n2` description lines, against
      below `n1`. */
  lemma ChipsBottomShift(all: seq<Choice>, activeName: string, n1: int, n2: int, fonts: Fonts)
    ensures Pack(all, activeName, ChoicesTop(n2), fonts).maxY
      == Pack(all, activeName, ChoicesTop(n1), fonts).maxY + LineHeight * (n2 - n1)
  {
    ChoicesTopShift(n1, n2);
    PackShiftBottom(all, activeName, ChoicesTop(n1), LineHeight * (n2 - n1), fonts);
  }

  /** The chips below `n2` description lines, against below `n1`. */
  lemma ChipsRowShift(all: seq<Choice>, activeName: string, n1: int, n2: int, fonts: Fonts)
    ensures ChipsShifted(Pack(all, activeName, ChoicesTop(n1), fonts).chips,
                         Pack(all, activeName, ChoicesTop(n2), fonts).chips, LineHeight * (n2 - n1))
  {
    ChoicesTopShift(n1, n2);
    PackShiftChips(all, activeName, ChoicesTop(n1), LineHeight * (n2 - n1), fonts);
  }

  /** The chips start one line height lower per extra description line. */
  lemma ChoicesTopShift(n1: int, n2: int)
    ensures ChoicesTop(n2) == ChoicesTop(n1) + LineHeight * (n2 - n1)
  {
  }

  /** `FinalHeightFormula` for an already wrapped description. */
  lemma LinesFinalHeight(lines: seq<string>, active: Choice, all: seq<Choice>, fonts: Fonts)
    ensures var c := LayoutLines(lines, active, all, fonts);
      c.finalHeight == c.chipsBottom + 2 * SectionGap + BlockGap
        + TotalAdvance(active.pros, fonts) + TotalAdvance(active.cons, fonts)
  {
    var c := LayoutLines(lines, active, all, fonts);
    PlaceItemsEnd(active.pros, c.prosTop, fonts);
    PlaceItemsEnd(active.cons, c.consTop, fonts);
  }

  /** Adding a choice, and so a chip, never makes the card shorter. */
  lemma AppendChoiceNoShrink(description: string, active: Choice, all: seq<Choice>, extra: Choice, fonts: Fonts)
    ensures LayoutCard(description, active, all + [extra], fonts).finalHeight
      >= LayoutCard(description, active, all, fonts).finalHeight
  {
    var a := LayoutCard(description, active, all, fonts);
    PackAppend(all, extra, active.name, a.choicesTop, fonts);
    FinalHeightFormula(description, active, all, fonts);
    FinalHeightFormula(description, active, all + [extra], fonts);
  }
}

=== FILE: text.dfy ===
/** The handful of Python string operations the card code is built on:
    `s.split()` (whitespace words), `s.strip()`, `s.split('\n')` and
    `"\n".join(parts)`, together with the pros/cons list parser that the
    form applies to each text area. */
module Text {

  /** The characters Python's argument-less `split()` and `strip()` treat as
      whitespace (`str.isspace`), written out as code-point ranges. */
  predicate IsSpace(c: char) {
    var n := c as int;
    || (9 <= n <= 13) || (28 <= n <= 32) || n == 0x85 || n == 0xA0
    || n == 0x1680 || (0x2000 <= n <= 0x200A) || n == 0x2028 || n == 0x2029
    || n == 0x202F || n == 0x205F || n == 0x3000
  }

  /** A word: one element of `s.split()`, non-empty and free of whitespace. */
  predicate IsWord(w: string) {
    |w| > 0 && forall i :: 0 <= i < |w| ==> !IsSpace(w[i])
  }

  predicate AllSpace(s: string) {
    forall i :: 0 <= i < |s| ==> IsSpace(s[i])
  }

  /** The length of the run of non-whitespace characters that starts `s`. */
  function WordLength(s: string): (n: nat)
    ensures n <= |s|
    ensures forall i :: 0 <= i < n ==> !IsSpace(s[i])
    ensures n < |s| ==> IsSpace(s[n])
  {
    if |s| == 0 || IsSpace(s[0]) then 0 else 1 + WordLength(s[1..])
  }

  /** Python's `s.split()`: the maximal runs of non-whitespace, in order. */
  function Words(s: string): (ws: seq<string>)
    ensures forall i :: 0 <= i < |ws| ==> IsWord(ws[i])
    decreases |s|
  {
    if |s| == 0 then []
    else if IsSpace(s[0]) then Words(s[1..])
    else
      var n := WordLength(s);
      [s[..n]] + Words(s[n..])
  }

  lemma {:induction false} WordLengthOfWord(w: string)
    requires IsWord(w)
    ensures WordLength(w) == |w|
    decreases |w|
  {
    if |w| > 1 {
      WordLengthOfWord(w[1..]);
    }
  }

  /** A word splits to itself. */
  lemma WordsOfWord(w: string)
    requires IsWord(w)
    ensures Words(w) == [w]
  {
    WordLengthOfWord(w);
    assert w[..|w|] == w;
    assert w[|w|..] == [];
  }

  /** Appending text behind a word boundary does not change the first word. */
  lemma {:induction false} WordLengthAppend(a: string, b: string)
    requires WordLength(a) < |a| || (|b| > 0 && IsSpace(b[0]))
    ensures WordLength(a + b) == WordLength(a)
    decreases |a|
  {
    if |a| == 0 {
    } else if IsSpace(a[0]) {
    } else {
      assert (a + b)[1..] == a[1..] + b;
      WordLengthAppend(a[1..], b);
    }
  }

  /** Joining one more word with a space adds exactly that word to `split()`. */
  lemma {:induction false} WordsSpaceAppend(a: string, w: string)
    requires IsWord(w)
    ensures Words(a + " " + w) == Words(a) + [w]
    decreases |a|
  {
    var s := a + " " + w;
    if |a| == 0 {
      assert s == " " + w;
      assert s[1..] == w;
      WordsOfWord(w);
    } else if IsSpace(a[0]) {
      assert s[1..] == a[1..] + " " + w;
      WordsSpaceAppend(a[1..], w);
    } else {
      var n := WordLength(a);
      assert s == a + (" " + w);
      WordLengthAppend(a, " " + w);
      assert WordLength(s) == n;
      assert s[..n] == a[..n];
      assert s[n..] == a[n..] + " " + w;
      WordsSpaceAppend(a[n..], w);
    }
  }

  /** `split()` returns nothing exactly for whitespace-only strings. */
  lemma {:induction false} WordsEmptyIffAllSpace(s: string)
    ensures Words(s) == [] <==> AllSpace(s)
    decreases |s|
  {
    if |s| > 0 && IsSpace(s[0]) {
      WordsEmptyIffAllSpace(s[1..]);
      if AllSpace(s[1..]) {
        forall i | 0 <= i < |s| ensures IsSpace(s[i]) {
          if i > 0 {
            assert s[i] == s[1..][i - 1];
          }
        }
      } else {
        var j :| 0 <= j < |s[1..]| && !IsSpace(s[1..][j]);
        assert !IsSpace(s[j + 1]);
      }
    }
  }

  /** `" ".join(words)`: the words separated by single spaces. */
  function JoinWords(ws: seq<string>): string
    decreases |ws|
  {
    if |ws| == 0 then ""
    else if |ws| == 1 then ws[0]
    else JoinWords(ws[..|ws| - 1]) + " " + ws[|ws| - 1]
  }

  /** A line made of its own words separated by single spaces: no leading,
      trailing or doubled whitespace. */
  predicate SingleSpaced(line: string) {
    line == JoinWords(Words(line))
  }

  lemma JoinWordsAppend(ws: seq<string>, w: string)
    requires |ws| > 0
    ensures JoinWords(ws + [w]) == JoinWords(ws) + " " + w
  {
    assert (ws + [w])[..|ws|] == ws;
  }

  /** Words joined with single spaces split back into the same words. */
  lemma {:induction false} WordsOfJoinWords(ws: seq<string>)
    requires forall i :: 0 <= i < |ws| ==> IsWord(ws[i])
    ensures Words(JoinWords(ws)) == ws
    decreases |ws|
  {
    if |ws| == 1 {
      WordsOfWord(ws[0]);
      assert ws == [ws[0]];
    } else if |ws| > 1 {
      var init := ws[..|ws| - 1];
      WordsOfJoinWords(init);
      WordsSpaceAppend(JoinWords(init), ws[|ws| - 1]);
      assert ws == init + [ws[|ws| - 1]];
    }
  }

  /** Python's `s.lstrip()`. */
  function TrimStart(s: string): (r: string)
    ensures |r| <= |s| && r == s[|s| - |r|..]
    ensures |r| > 0 ==> !IsSpace(r[0])
    ensures forall i :: 0 <= i < |s| - |r| ==> IsSpace(s[i])
  {
    if |s| > 0 && IsSpace(s[0]) then TrimStart(s[1..]) else s
  }

  /** Python's `s.rstrip()`. */
  function TrimEnd(s: string): (r: string)
    ensures |r| <= |s| && r == s[..|r|]
    ensures |r| > 0 ==> !IsSpace(r[|r| - 1])
    ensures forall i :: |r| <= i < |s| ==> IsSpace(s[i])
  {
    if |s| > 0 && IsSpace(s[|s| - 1]) then TrimEnd(s[..|s| - 1]) else s
  }

  /** How many whitespace characters `lstrip()` removes from `s`. */
  function LeadingSpace(s: string): (n: nat)
    ensures n <= |s|
  {
    |s| - |TrimStart(s)|
  }

  /** A string `strip()` leaves alone: no whitespace at either end. */
  predicate IsStripped(s: string) {
    |s| == 0 || (!IsSpace(s[0]) && !IsSpace(s[|s| - 1]))
  }

  /** `r` is the piece of `s` starting at `a` with only whitespace before
      and after it. */
  predicate TrimmedAt(s: string, r: string, a: int) {
    && 0 <= a <= |s| - |r| && r == s[a..a + |r|]
    && (forall i :: 0 <= i < a ==> IsSpace(s[i]))
    && (forall i :: a + |r| <= i < |s| ==> IsSpace(s[i]))
  }

  /** Python's `s.strip()`: a piece of the text with only whitespace cut from
      either side, no whitespace left at either end; a string with none is
      left alone. */
  function Strip(s: string): (r: string)
    ensures TrimmedAt(s, r, LeadingSpace(s))
    ensures IsStripped(r)
    ensures IsStripped(s) ==> r == s
  {
    var t := TrimStart(s);
    var r := TrimEnd(t);
    StripEnds(s, t, r);
    StripSlice(s, t, r);
    r
  }

  lemma StripEnds(s: string, t: string, r: string)
    requires t == TrimStart(s) && r == TrimEnd(t)
    ensures IsStripped(r)
    ensures IsStripped(s) ==> r == s
  {
    if |r| > 0 {
      assert r[0] == t[0];
    }
  }

  /** What `strip()` keeps is the piece between the two whitespace runs. */
  lemma StripSlice(s: string, t: string, r: string)
    requires |t| <= |s| && t == s[|s| - |t|..]
    requires forall i :: 0 <= i < |s| - |t| ==> IsSpace(s[i])
    requires |r| <= |t| && r == t[..|r|]
    requires forall i :: |r| <= i < |t| ==> IsSpace(t[i])
    ensures TrimmedAt(s, r, |s| - |t|)
  {
    var a := |s| - |t|;
    assert s[a..a + |r|] == t[..|r|];
    forall i | a + |r| <= i < |s| ensures IsSpace(s[i]) {
      assert s[i] == t[i - a];
    }
  }

  /** `strip()` only removes characters, and it leaves nothing exactly when
      the string is all whitespace. */
  lemma StripContents(s: string)
    ensures multiset(Strip(s)) <= multiset(s)
    ensures Strip(s) == "" <==> AllSpace(s)
  {
    var t := TrimStart(s);
    StripKeepsCharacters(s, t, TrimEnd(t));
    StripEmptyIffAllSpace(s, t, TrimEnd(t));
  }

  lemma StripKeepsCharacters(s: string, t: string, r: string)
    requires t == TrimStart(s) && r == TrimEnd(t)
    ensures multiset(r) <= multiset(s)
  {
    InnerSliceMultiset(s, t, r);
  }

  /** A piece cut from the inside of `s` holds no character `s` lacks. */
  lemma InnerSliceMultiset(s: string, t: string, r: string)
    requires |t| <= |s| && t == s[|s| - |t|..]
    requires |r| <= |t| && r == t[..|r|]
    ensures multiset(r) <= multiset(s)
  {
    var a := |s| - |t|;
    assert s == s[..a] + t;
    assert t == r + t[|r|..];
    assert multiset(s) == multiset(s[..a]) + multiset(r) + multiset(t[|r|..]);
  }

  lemma StripEmptyIffAllSpace(s: string, t: string, r: string)
    requires t == TrimStart(s) && r == TrimEnd(t)
    ensures r == "" <==> AllSpace(s)
  {
    var a := |s| - |t|;
    if |r| > 0 {
      assert r[0] == s[a];
    }
  }

  /** The length of the first line of `s`: the characters before its first
      newline, or all of `s` when it has none. */
  function LineLength(s: string): (n: nat)
    ensures n <= |s|
  {
    if |s| == 0 || s[0] == '\n' then 0 else 1 + LineLength(s[1..])
  }

  /** The first line holds no newline and, unless it is all of `s`, is
      followed by one. */
  lemma {:induction false} FirstLine(s: string)
    ensures forall i :: 0 <= i < LineLength(s) ==> s[i] != '\n'
    ensures LineLength(s) < |s| ==> s[LineLength(s)] == '\n'
    decreases |s|
  {
    if |s| > 0 && s[0] != '\n' {
      FirstLine(s[1..]);
      forall i | 0 < i < LineLength(s) ensures s[i] != '\n' {
        assert s[i] == s[1..][i - 1];
      }
    }
  }

  /** Python's `s.split('\n')`: the pieces between newlines, always at least one. */
  function SplitLines(s: string): (ps: seq<string>)
    ensures |ps| >= 1
    decreases |s|
  {
    var n := LineLength(s);
    if n == |s| then [s] else [s[..n]] + SplitLines(s[n + 1..])
  }

  /** No piece of a split holds a newline. */
  lemma {:induction false} SplitLinesPieces(s: string)
    ensures forall i :: 0 <= i < |SplitLines(s)| ==> '\n' !in SplitLines(s)[i]
    decreases |s|
  {
    var n := LineLength(s);
    FirstLine(s);
    if n < |s| {
      SplitLinesPieces(s[n + 1..]);
      var ps := SplitLines(s);
      var rest := SplitLines(s[n + 1..]);
      forall i | 0 <= i < |ps| ensures '\n' !in ps[i] {
        if i > 0 {
          assert ps[i] == rest[i - 1];
        }
      }
    }
  }

  /** Python's `"\n".join(ps)`. */
  function JoinLines(ps: seq<string>): string {
    if |ps| == 0 then ""
    else if |ps| == 1 then ps[0]
    else ps[0] + "\n" + JoinLines(ps[1..])
  }

  /** Splitting on newlines and joining back with newlines gives the text back. */
  lemma {:induction false} JoinSplitLines(s: string)
    ensures JoinLines(SplitLines(s)) == s
    decreases |s|
  {
    var n := LineLength(s);
    FirstLine(s);
    if n < |s| {
      JoinSplitLines(s[n + 1..]);
      JoinLinesCons(s[..n], SplitLines(s[n + 1..]));
      SliceAroundNewline(s, n);
    }
  }

  lemma JoinLinesCons(p: string, rest: seq<string>)
    requires |rest| >= 1
    ensures JoinLines([p] + rest) == p + "\n" + JoinLines(rest)
  {
    assert ([p] + rest)[1..] == rest;
  }

  lemma SliceAroundNewline(s: string, n: nat)
    requires n < |s| && s[n] == '\n'
    ensures s == s[..n] + "\n" + s[n + 1..]
  {
  }

  /** A line ending before a newline ends at the same place whatever
      follows the newline. */
  lemma {:induction false} LineLengthAppend(a: string, b: string)
    ensures LineLength(a + "\n" + b) == LineLength(a)
    decreases |a|
  {
    if |a| > 0 && a[0] != '\n' {
      assert (a + "\n" + b)[1..] == a[1..] + "\n" + b;
      LineLengthAppend(a[1..], b);
    }
  }

  /** How the text `a + "\n" + b` falls apart around the end of `a`'s
      first line. */
  lemma ConcatSlices(a: string, b: string, n: nat)
    requires n <= |a|
    ensures (a + "\n" + b)[..n] == a[..n]
    ensures n == |a| ==> (a + "\n" + b)[n + 1..] == b && a[..n] == a
    ensures n < |a| ==> (a + "\n" + b)[n + 1..] == a[n + 1..] + "\n" + b
  {
  }

  /** A newline in the middle splits the text into the pieces of both halves. */
  lemma {:induction false} SplitLinesConcat(a: string, b: string)
    ensures SplitLines(a + "\n" + b) == SplitLines(a) + SplitLines(b)
    decreases |a|
  {
    var n := LineLength(a);
    LineLengthAppend(a, b);
    ConcatSlices(a, b, n);
    if n < |a| {
      SplitLinesConcat(a[n + 1..], b);
      SplitLinesFirst(a + "\n" + b, a[..n], a[n + 1..] + "\n" + b);
      SplitLinesFirst(a, a[..n], a[n + 1..]);
    } else {
      SplitLinesFirst(a + "\n" + b, a, b);
    }
  }

  /** The split of a text whose first line is `line`, followed by `rest`. */
  lemma SplitLinesFirst(s: string, line: string, rest: string)
    requires LineLength(s) == |line| < |s|
    requires s[..|line|] == line && s[|line| + 1..] == rest
    ensures SplitLines(s) == [line] + SplitLines(rest)
  {
  }

  lemma {:induction false} SplitLinesNoNewline(s: string)
    requires '\n' !in s
    ensures SplitLines(s) == [s]
  {
    FirstLine(s);
    assert forall i :: 0 <= i < |s| ==> s[i] != '\n';
  }

  /** Joining newline-free pieces and splitting again gives the pieces back. */
  lemma {:induction false} SplitJoinLines(ps: seq<string>)
    requires |ps| >= 1
    requires forall i :: 0 <= i < |ps| ==> '\n' !in ps[i]
    ensures SplitLines(JoinLines(ps)) == ps
  {
    SplitLinesNoNewline(ps[0]);
    if |ps| > 1 {
      SplitJoinLines(ps[1..]);
      SplitLinesConcat(ps[0], JoinLines(ps[1..]));
      assert ps == [ps[0]] + ps[1..];
    }
  }

  lemma StripOneLine(s: string)
    requires '\n' !in s
    ensures '\n' !in Strip(s)
  {
    StripContents(s);
    assert multiset(s)['\n'] == 0;
  }

  /** A pros/cons entry as the form keeps it: non-empty, stripped, one line. */
  predicate IsItem(s: string) {
    s != "" && IsStripped(s) && '\n' !in s
  }

  /** `[p.strip() for p in ps if p.strip()]`. */
  function KeepStripped(ps: seq<string>): (items: seq<string>)
    ensures |items| <= |ps|
  {
    if |ps| == 0 then [] else Kept(ps[0]) + KeepStripped(ps[1..])
  }

  /** What the comprehension keeps of one piece: its stripped text, unless
      that is empty. */
  function Kept(p: string): (kept: seq<string>)
    ensures |kept| <= 1
    ensures kept != [] <==> !AllSpace(p)
    ensures kept != [] ==> kept[0] == Strip(p)
  {
    StripContents(p);
    var t := Strip(p);
    if t != "" then [t] else []
  }

  /** Pieces free of newlines strip to items. */
  lemma {:induction false} KeepStrippedAreItems(ps: seq<string>)
    requires forall i :: 0 <= i < |ps| ==> '\n' !in ps[i]
    ensures forall i :: 0 <= i < |KeepStripped(ps)| ==> IsItem(KeepStripped(ps)[i])
  {
    if |ps| > 0 {
      var rest := ps[1..];
      forall i | 0 <= i < |rest| ensures '\n' !in rest[i] {
        assert rest[i] == ps[i + 1];
      }
      KeepStrippedAreItems(rest);
      var t := Strip(ps[0]);
      var r := KeepStripped(rest);
      if t != "" {
        assert '\n' !in ps[0];
        StripOneLine(ps[0]);
        assert IsItem(t);
        forall i | 0 <= i < |[t] + r| ensures IsItem(([t] + r)[i]) {
          if i > 0 {
            assert ([t] + r)[i] == r[i - 1];
          }
        }
      }
    }
  }

  lemma {:induction false} KeepStrippedConcat(a: seq<string>, b: seq<string>)
    ensures KeepStripped(a + b) == KeepStripped(a) + KeepStripped(b)
  {
    if |a| > 0 {
      KeepStrippedConcat(a[1..], b);
      KeepStrippedConcatStep(a, b);
    } else {
      assert a + b == b;
    }
  }

  lemma KeepStrippedConcatStep(a: seq<string>, b: seq<string>)
    requires |a| > 0
    requires KeepStripped(a[1..] + b) == KeepStripped(a[1..]) + KeepStripped(b)
    ensures KeepStripped(a + b) == KeepStripped(a) + KeepStripped(b)
  {
    ConsOfConcat(a, b);
    Regroup(KeepStripped(a + b), Kept(a[0]), KeepStripped(a[1..]), KeepStripped(b), KeepStripped(a[1..] + b));
  }

  lemma ConsOfConcat<T>(a: seq<T>, b: seq<T>)
    requires |a| > 0
    ensures (a + b)[0] == a[0] && (a + b)[1..] == a[1..] + b
  {
  }

  /** Regrouping a three-part concatenation. */
  lemma Regroup<T>(whole: seq<T>, h: seq<T>, x: seq<T>, y: seq<T>, tail: seq<T>)
    requires whole == h + tail && tail == x + y
    ensures whole == (h + x) + y
  {
  }

  /** The list a pros or cons text area yields:
      `[p.strip() for p in text.split('\n') if p.strip()]`. */
  function ParseItems(text: string): (items: seq<string>)
    ensures forall i :: 0 <= i < |items| ==> IsItem(items[i])
  {
    SplitLinesPieces(text);
    KeepStrippedAreItems(SplitLines(text));
    KeepStripped(SplitLines(text))
  }

  /** A single line yields its stripped text, or nothing when it is blank. */
  lemma ParseItemsOneLine(line: string)
    requires '\n' !in line
    ensures ParseItems(line) == if AllSpace(line) then [] else [Strip(line)]
  {
    StripContents(line);
    SplitLinesNoNewline(line);
  }

  /** Items keep their input order: the entries of an earlier line come
      before those of a later one. */
  lemma ParseItemsConcat(a: string, b: string)
    ensures ParseItems(a + "\n" + b) == ParseItems(a) + ParseItems(b)
  {
    SplitLinesConcat(a, b);
    KeepStrippedConcat(SplitLines(a), SplitLines(b));
  }

  lemma {:induction false} KeepStrippedItems(items: seq<string>)
    requires forall i :: 0 <= i < |items| ==> IsItem(items[i])
    ensures forall i :: 0 <= i < |items| ==> '\n' !in items[i]
    ensures KeepStripped(items) == items
  {
    if |items| > 0 {
      KeepStrippedItems(items[1..]);
      assert items == [items[0]] + items[1..];
    }
  }

  /** Every piece is whitespace only. */
  predicate AllBlank(ps: seq<string>) {
    forall i :: 0 <= i < |ps| ==> AllSpace(ps[i])
  }

  lemma AllBlankFront(ps: seq<string>)
    requires |ps| > 0
    ensures AllBlank(ps) <==> AllSpace(ps[0]) && AllBlank(ps[1..])
  {
    assert forall i :: 1 <= i < |ps| ==> ps[i] == ps[1..][i - 1];
  }

  lemma {:induction false} KeepStrippedEmpty(ps: seq<string>)
    ensures KeepStripped(ps) == [] <==> AllBlank(ps)
  {
    if |ps| > 0 {
      StripContents(ps[0]);
      KeepStrippedEmpty(ps[1..]);
      AllBlankFront(ps);
    }
  }

  lemma {:induction false} JoinLinesAllSpace(ps: seq<string>)
    ensures AllSpace(JoinLines(ps)) <==> AllBlank(ps)
  {
    if |ps| > 1 {
      JoinLinesAllSpace(ps[1..]);
      AllBlankFront(ps);
      var rest := JoinLines(ps[1..]);
      var s := ps[0] + "\n" + rest;
      assert forall i :: 0 <= i < |ps[0]| ==> s[i] == ps[0][i];
      assert s[|ps[0]|] == '\n';
      assert forall i :: 0 <= i < |rest| ==> s[|ps[0]| + 1 + i] == rest[i];
      if AllSpace(ps[0]) && AllSpace(rest) {
        forall i | 0 <= i < |s| ensures IsSpace(s[i]) {
          if i > |ps[0]| {
            assert s[i] == rest[i - |ps[0]| - 1];
          }
        }
      }
    }
  }

  /** A text area yields no entries exactly when it holds only whitespace
      (newlines included). */
  lemma ParseItemsEmptyIffBlank(text: string)
    ensures ParseItems(text) == [] <==> AllSpace(text)
  {
    KeepStrippedEmpty(SplitLines(text));
    JoinLinesAllSpace(SplitLines(text));
    JoinSplitLines(text);
  }

  /** Refilling a text area with `"\n".join(items)` and parsing it again
      gives the same list back. */
  lemma ParseJoinItems(items: seq<string>)
    requires forall i :: 0 <= i < |items| ==> IsItem(items[i])
    ensures ParseItems(JoinLines(items)) == items
  {
    if |items| == 0 {
      ParseBlankLine();
    } else {
      ParseJoinNonEmpty(items);
    }
  }

  lemma ParseJoinNonEmpty(items: seq<string>)
    requires |items| > 0
    requires forall i :: 0 <= i < |items| ==> IsItem(items[i])
    ensures ParseItems(JoinLines(items)) == items
  {
    KeepStrippedItems(items);
    SplitJoinLines(items);
  }

  lemma ParseBlankLine()
    ensures ParseItems("") == []
  {
    ParseItemsEmptyIffBlank("");
  }

  /** Parsing is stable under the refill: a parsed list survives being
      joined and parsed again. */
  lemma ParseRefillStable(text: string)
    ensures ParseItems(JoinLines(ParseItems(text))) == ParseItems(text)
  {
    ParseJoinItems(ParseItems(text));
  }
}

=== FILE: wrap.dfy ===
/** The greedy word wrap `create_card_image` runs three times: over the
    description and over every pro and every con. Words of `text.split()`
    are added to a `current_line` accumulator while the measured candidate
    fits the width; otherwise the accumulator is flushed as a line and the
    word starts the next one. */
module Wrap {
  import opened Text

  /** The lines emitted so far and the accumulator `current_line`. */
  datatype WrapState = WrapState(lines: seq<string>, current: string)

  /** One turn of the word loop. When the accumulator is still empty and the
      first word alone is too wide, the empty accumulator is flushed: the
      source emits an empty line before that word. */
  function Step(st: WrapState, word: string, measure: string -> int, maxWidth: int): WrapState {
    var candidate := if st.current != "" then st.current + " " + word else word;
    if measure(candidate) <= maxWidth then WrapState(st.lines, candidate)
    else WrapState(st.lines + [st.current], word)
  }

  /** The state after the loop has consumed `words`, one turn per word. */
  function Fold(words: seq<string>, measure: string -> int, maxWidth: int): WrapState
    decreases |words|
  {
    if |words| == 0 then WrapState([], "")
    else Step(Fold(words[..|words| - 1], measure, maxWidth), words[|words| - 1], measure, maxWidth)
  }

  /** The words of each line, in line order: reading the lines back. */
  function LineWords(lines: seq<string>): seq<string>
    decreases |lines|
  {
    if |lines| == 0 then []
    else LineWords(lines[..|lines| - 1]) + Words(lines[|lines| - 1])
  }

  /** The one case in which the source emits an empty line: the first word
      on its own is wider than the bound. */
  predicate FirstWordTooWide(words: seq<string>, measure: string -> int, maxWidth: int) {
    |words| > 0 && measure(words[0]) > maxWidth
  }

  /** What a line of the output may be: the empty line, only as line 0 and
      only when the first word is too wide; a single (possibly oversized)
      word; or a text whose measured width is within the bound. */
  predicate LineAllowed(lines: seq<string>, i: int, words: seq<string>, measure: string -> int, maxWidth: int)
    requires 0 <= i < |lines|
  {
    if lines[i] == "" then i == 0 && FirstWordTooWide(words, measure, maxWidth)
    else IsWord(lines[i]) || measure(lines[i]) <= maxWidth
  }

  /** What holds after every turn of the loop over the words `done`. */
  ghost predicate Invariant(st: WrapState, done: seq<string>, measure: string -> int, maxWidth: int) {
    && LineWords(st.lines) + Words(st.current) == done
    && (st.current == "" <==> done == [])
    && (done == [] ==> st.lines == [])
    && (st.current == "" || IsWord(st.current) || measure(st.current) <= maxWidth)
    && (st.current == "" || Words(st.current) != [])
    && (forall i :: 0 <= i < |st.lines| ==> LineAllowed(st.lines, i, done, measure, maxWidth))
    && (forall i :: 0 <= i < |st.lines| ==> st.lines[i] == "" || Words(st.lines[i]) != [])
    && (FirstWordTooWide(done, measure, maxWidth) ==> |st.lines| > 0 && st.lines[0] == "")
  }

  lemma LineWordsAppend(lines: seq<string>, line: string)
    ensures LineWords(lines + [line]) == LineWords(lines) + Words(line)
  {
    assert (lines + [line])[..|lines|] == lines;
  }

  /** One turn of the loop keeps the invariant. */
  lemma StepKeepsInvariant(st: WrapState, done: seq<string>, word: string, measure: string -> int, maxWidth: int)
    requires IsWord(word)
    requires Invariant(st, done, measure, maxWidth)
    ensures Invariant(Step(st, word, measure, maxWidth), done + [word], measure, maxWidth)
  {
    var candidate := if st.current != "" then st.current + " " + word else word;
    if measure(candidate) <= maxWidth {
      ExtendKeepsInvariant(st, done, word, measure, maxWidth);
    } else {
      BreakKeepsInvariant(st, done, word, measure, maxWidth);
    }
  }

  /** The candidate fits: the word joins the accumulator. */
  lemma ExtendKeepsInvariant(st: WrapState, done: seq<string>, word: string, measure: string -> int, maxWidth: int)
    requires IsWord(word)
    requires Invariant(st, done, measure, maxWidth)
    requires measure(if st.current != "" then st.current + " " + word else word) <= maxWidth
    ensures Invariant(Step(st, word, measure, maxWidth), done + [word], measure, maxWidth)
  {
    var done' := done + [word];
    var candidate := if st.current != "" then st.current + " " + word else word;
    assert Step(st, word, measure, maxWidth) == WrapState(st.lines, candidate);
    WordsOfWord(word);
    if st.current != "" {
      WordsSpaceAppend(st.current, word);
      assert done'[0] == done[0];
      forall i | 0 <= i < |st.lines|
        ensures LineAllowed(st.lines, i, done', measure, maxWidth)
      {
        assert LineAllowed(st.lines, i, done, measure, maxWidth);
      }
    } else {
      assert done == [] && st.lines == [];
      assert done' == [word];
    }
  }

  /** The candidate is too wide: the accumulator becomes a line and the
      word starts the next one. */
  lemma BreakKeepsInvariant(st: WrapState, done: seq<string>, word: string, measure: string -> int, maxWidth: int)
    requires IsWord(word)
    requires Invariant(st, done, measure, maxWidth)
    requires measure(if st.current != "" then st.current + " " + word else word) > maxWidth
    ensures Invariant(Step(st, word, measure, maxWidth), done + [word], measure, maxWidth)
  {
    var done' := done + [word];
    var st' := Step(st, word, measure, maxWidth);
    assert st' == WrapState(st.lines + [st.current], word);
    WordsOfWord(word);
    LineWordsAppend(st.lines, st.current);
    assert st'.lines[|st.lines|] == st.current;
    if st.current == "" {
      assert done == [] && st.lines == [];
      assert st'.lines == [""];
      assert done' == [word];
      assert LineAllowed(st'.lines, 0, done', measure, maxWidth);
    } else {
      assert done'[0] == done[0];
      forall i | 0 <= i < |st'.lines|
        ensures LineAllowed(st'.lines, i, done', measure, maxWidth)
        ensures st'.lines[i] == "" || Words(st'.lines[i]) != []
      {
        if i < |st.lines| {
          assert st'.lines[i] == st.lines[i];
          assert LineAllowed(st.lines, i, done, measure, maxWidth);
        }
      }
      if FirstWordTooWide(done', measure, maxWidth) {
        assert st'.lines[0] == st.lines[0];
      }
    }
  }

  /** The loop invariant holds after any number of words. */
  lemma {:induction false} FoldInvariant(words: seq<string>, measure: string -> int, maxWidth: int)
    requires forall i :: 0 <= i < |words| ==> IsWord(words[i])
    ensures Invariant(Fold(words, measure, maxWidth), words, measure, maxWidth)
    decreases |words|
  {
    if |words| > 0 {
      var init := words[..|words| - 1];
      FoldInvariant(init, measure, maxWidth);
      assert init + [words[|words| - 1]] == words;
      StepKeepsInvariant(Fold(init, measure, maxWidth), init, words[|words| - 1], measure, maxWidth);
    }
  }

  /** A line is closed against what follows it when it is the empty line,
      or when adding the next line's first word would have made it too wide:
      the loop only starts a new line when it has to. */
  predicate Closed(line: string, next: string, measure: string -> int, maxWidth: int) {
    line == "" || (Words(next) != [] && measure(line + " " + Words(next)[0]) > maxWidth)
  }

  /** What follows emitted line `i`: the next line, or the accumulator
      after the last one. */
  function Following(st: WrapState, i: int): string
    requires 0 <= i < |st.lines|
  {
    if i + 1 < |st.lines| then st.lines[i + 1] else st.current
  }

  /** Every emitted line is closed against what follows it. */
  ghost predicate Greedy(st: WrapState, measure: string -> int, maxWidth: int) {
    forall i :: 0 <= i < |st.lines| ==> Closed(st.lines[i], Following(st, i), measure, maxWidth)
  }

  /** The two facts of the loop invariant the greedy argument uses. */
  lemma InvariantShape(st: WrapState, done: seq<string>, measure: string -> int, maxWidth: int)
    requires Invariant(st, done, measure, maxWidth)
    ensures st.current == "" ==> st.lines == []
    ensures st.current != "" ==> Words(st.current) != []
  {
  }

  /** One turn of the loop keeps every line closed. */
  lemma StepKeepsGreedy(st: WrapState, word: string, measure: string -> int, maxWidth: int)
    requires IsWord(word)
    requires Greedy(st, measure, maxWidth)
    requires st.current == "" ==> st.lines == []
    requires st.current != "" ==> Words(st.current) != []
    ensures Greedy(Step(st, word, measure, maxWidth), measure, maxWidth)
  {
    var candidate := if st.current != "" then st.current + " " + word else word;
    if measure(candidate) <= maxWidth {
      if st.current != "" {
        ExtendKeepsGreedy(st, word, measure, maxWidth);
      }
    } else {
      BreakKeepsGreedy(st, word, measure, maxWidth);
    }
  }

  /** Extending a non-empty accumulator keeps its first word, so the last
      line stays closed. */
  lemma ExtendKeepsGreedy(st: WrapState, word: string, measure: string -> int, maxWidth: int)
    requires IsWord(word) && st.current != "" && Words(st.current) != []
    requires Greedy(st, measure, maxWidth)
    ensures Greedy(WrapState(st.lines, st.current + " " + word), measure, maxWidth)
  {
    var st' := WrapState(st.lines, st.current + " " + word);
    WordsSpaceAppend(st.current, word);
    assert Words(st'.current)[0] == Words(st.current)[0];
    forall i | 0 <= i < |st'.lines| ensures Closed(st'.lines[i], Following(st', i), measure, maxWidth) {
      assert Closed(st.lines[i], Following(st, i), measure, maxWidth);
    }
  }

  /** A break happens only when the accumulator plus the word is too wide,
      so the accumulator becomes a closed line. */
  lemma BreakKeepsGreedy(st: WrapState, word: string, measure: string -> int, maxWidth: int)
    requires IsWord(word)
    requires Greedy(st, measure, maxWidth)
    requires measure(if st.current != "" then st.current + " " + word else word) > maxWidth
    ensures Greedy(WrapState(st.lines + [st.current], word), measure, maxWidth)
  {
    var st' := WrapState(st.lines + [st.current], word);
    var n := |st.lines|;
    WordsOfWord(word);
    assert Closed(st.current, word, measure, maxWidth);
    forall i | 0 <= i < n + 1 ensures Closed(st'.lines[i], Following(st', i), measure, maxWidth) {
      if i < n {
        assert st'.lines[i] == st.lines[i];
        assert Following(st', i) == Following(st, i);
        assert Closed(st.lines[i], Following(st, i), measure, maxWidth);
      } else {
        assert st'.lines[i] == st.current;
      }
    }
  }

  /** Every line the loop emits is closed. */
  lemma {:induction false} FoldGreedy(words: seq<string>, measure: string -> int, maxWidth: int)
    requires forall i :: 0 <= i < |words| ==> IsWord(words[i])
    ensures Greedy(Fold(words, measure, maxWidth), measure, maxWidth)
    decreases |words|
  {
    if |words| > 0 {
      var init := words[..|words| - 1];
      FoldGreedy(init, measure, maxWidth);
      FoldInvariant(init, measure, maxWidth);
      InvariantShape(Fold(init, measure, maxWidth), init, measure, maxWidth);
      StepKeepsGreedy(Fold(init, measure, maxWidth), words[|words| - 1], measure, maxWidth);
    }
  }

  /** After the flush every line but the last is closed against the next. */
  lemma FlushGreedy(st: WrapState, measure: string -> int, maxWidth: int)
    requires Greedy(st, measure, maxWidth)
    requires st.current == "" ==> st.lines == []
    ensures forall i :: 0 <= i < |Flush(st)| - 1 ==> Closed(Flush(st)[i], Flush(st)[i + 1], measure, maxWidth)
  {
    var lines := Flush(st);
    if st.current != "" {
      forall i | 0 <= i < |lines| - 1 ensures Closed(lines[i], lines[i + 1], measure, maxWidth) {
        assert lines[i] == st.lines[i];
        assert lines[i + 1] == Following(st, i);
        assert Closed(st.lines[i], Following(st, i), measure, maxWidth);
      }
    }
  }

  /** Every emitted line and the accumulator are single-spaced: the loop
      only ever builds `current_line + " " + word`. */
  predicate Spaced(st: WrapState) {
    && SingleSpaced(st.current)
    && forall i :: 0 <= i < |st.lines| ==> SingleSpaced(st.lines[i])
  }

  /** One turn of the loop keeps every line single-spaced. */
  lemma StepKeepsSpaced(st: WrapState, word: string, measure: string -> int, maxWidth: int)
    requires IsWord(word)
    requires Spaced(st)
    ensures Spaced(Step(st, word, measure, maxWidth))
  {
    WordsOfWord(word);
    assert JoinWords([word]) == word;
    var candidate := if st.current != "" then st.current + " " + word else word;
    if measure(candidate) <= maxWidth {
      if st.current != "" {
        WordsSpaceAppend(st.current, word);
        assert Words(st.current) != [];
        JoinWordsAppend(Words(st.current), word);
      }
    } else {
      var st' := Step(st, word, measure, maxWidth);
      forall i | 0 <= i < |st'.lines| ensures SingleSpaced(st'.lines[i]) {
        if i < |st.lines| {
          assert st'.lines[i] == st.lines[i];
        }
      }
    }
  }

  /** Every line the loop builds is single-spaced. */
  lemma {:induction false} FoldSpaced(words: seq<string>, measure: string -> int, maxWidth: int)
    requires forall i :: 0 <= i < |words| ==> IsWord(words[i])
    ensures Spaced(Fold(words, measure, maxWidth))
    decreases |words|
  {
    if |words| > 0 {
      var init := words[..|words| - 1];
      FoldSpaced(init, measure, maxWidth);
      StepKeepsSpaced(Fold(init, measure, maxWidth), words[|words| - 1], measure, maxWidth);
    }
  }

  lemma FlushSpaced(st: WrapState)
    requires Spaced(st)
    ensures forall i :: 0 <= i < |Flush(st)| ==> SingleSpaced(Flush(st)[i])
  {
    var lines := Flush(st);
    forall i | 0 <= i < |lines| ensures SingleSpaced(lines[i]) {
      if i < |st.lines| {
        assert lines[i] == st.lines[i];
      }
    }
  }

  /** Every run of two or more leading words of `line` fits the width: the
      loop only appends a word to the accumulator when the candidate fits.
      The first word alone may be too wide. */
  predicate PrefixesFit(line: string, measure: string -> int, maxWidth: int) {
    forall k :: 2 <= k <= |Words(line)| ==> measure(JoinWords(Words(line)[..k])) <= maxWidth
  }

  /** The accumulator and every emitted line have fitting prefixes. */
  predicate Fitted(st: WrapState, measure: string -> int, maxWidth: int) {
    && PrefixesFit(st.current, measure, maxWidth)
    && forall i :: 0 <= i < |st.lines| ==> PrefixesFit(st.lines[i], measure, maxWidth)
  }

  /** One turn of the loop keeps every prefix fitting. */
  lemma StepKeepsFitted(st: WrapState, word: string, measure: string -> int, maxWidth: int)
    requires IsWord(word)
    requires Spaced(st) && Fitted(st, measure, maxWidth)
    ensures Fitted(Step(st, word, measure, maxWidth), measure, maxWidth)
  {
    WordsOfWord(word);
    var candidate := if st.current != "" then st.current + " " + word else word;
    if measure(candidate) <= maxWidth {
      if st.current != "" {
        ExtendKeepsFitted(st, word, measure, maxWidth);
      }
    } else {
      var st' := Step(st, word, measure, maxWidth);
      forall i | 0 <= i < |st'.lines| ensures PrefixesFit(st'.lines[i], measure, maxWidth) {
        if i < |st.lines| {
          assert st'.lines[i] == st.lines[i];
        }
      }
    }
  }

  /** Extending a non-empty accumulator: the old prefixes stay, and the one
      new prefix is the candidate the loop just measured. */
  lemma ExtendKeepsFitted(st: WrapState, word: string, measure: string -> int, maxWidth: int)
    requires IsWord(word) && st.current != ""
    requires SingleSpaced(st.current) && PrefixesFit(st.current, measure, maxWidth)
    requires measure(st.current + " " + word) <= maxWidth
    ensures PrefixesFit(st.current + " " + word, measure, maxWidth)
  {
    var ws := Words(st.current);
    var ws' := Words(st.current + " " + word);
    WordsSpaceAppend(st.current, word);
    assert ws != [];
    JoinWordsAppend(ws, word);
    forall k | 2 <= k <= |ws'| ensures measure(JoinWords(ws'[..k])) <= maxWidth {
      if k <= |ws| {
        assert ws'[..k] == ws[..k];
      } else {
        assert ws'[..k] == ws + [word];
      }
    }
  }

  /** Every line the loop builds has fitting prefixes. */
  lemma {:induction false} FoldFitted(words: seq<string>, measure: string -> int, maxWidth: int)
    requires forall i :: 0 <= i < |words| ==> IsWord(words[i])
    ensures Fitted(Fold(words, measure, maxWidth), measure, maxWidth)
    decreases |words|
  {
    if |words| > 0 {
      var init := words[..|words| - 1];
      FoldFitted(init, measure, maxWidth);
      FoldSpaced(init, measure, maxWidth);
      StepKeepsFitted(Fold(init, measure, maxWidth), words[|words| - 1], measure, maxWidth);
    }
  }

  lemma FlushFitted(st: WrapState, measure: string -> int, maxWidth: int)
    requires Fitted(st, measure, maxWidth)
    ensures forall i :: 0 <= i < |Flush(st)| ==> PrefixesFit(Flush(st)[i], measure, maxWidth)
  {
    var lines := Flush(st);
    forall i | 0 <= i < |lines| ensures PrefixesFit(lines[i], measure, maxWidth) {
      if i < |st.lines| {
        assert lines[i] == st.lines[i];
      }
    }
  }

  /** `text` wrapped to `maxWidth` as the source does it: the loop over
      `text.split()` followed by the flush of a non-empty accumulator.
      Every line is allowed; the words of the lines, read in order, are
      exactly the words of the text (nothing dropped, reordered or broken);
      there are no lines exactly when the text is blank; every line is its
      words joined by single spaces, and each run of two or more of its
      leading words fits; and every line but the last is closed: its
      successor's first word would not have fit. */
  function WrapText(text: string, measure: string -> int, maxWidth: int): (lines: seq<string>)
    ensures forall i :: 0 <= i < |lines| ==> LineAllowed(lines, i, Words(text), measure, maxWidth)
    ensures LineWords(lines) == Words(text)
    ensures lines == [] <==> AllSpace(text)
    ensures FirstWordTooWide(Words(text), measure, maxWidth) <==> |lines| > 0 && lines[0] == ""
    ensures forall i :: 0 <= i < |lines| ==> lines[i] == "" || Words(lines[i]) != []
    ensures forall i :: 0 <= i < |lines| ==> SingleSpaced(lines[i])
    ensures forall i :: 0 <= i < |lines| ==> PrefixesFit(lines[i], measure, maxWidth)
    ensures forall i :: 0 <= i < |lines| - 1 ==> Closed(lines[i], lines[i + 1], measure, maxWidth)
  {
    var words := Words(text);
    FoldInvariant(words, measure, maxWidth);
    WordsEmptyIffAllSpace(text);
    var st := Fold(words, measure, maxWidth);
    FlushFacts(st, words, measure, maxWidth);
    FoldGreedy(words, measure, maxWidth);
    InvariantShape(st, words, measure, maxWidth);
    FlushGreedy(st, measure, maxWidth);
    FoldSpaced(words, measure, maxWidth);
    FlushSpaced(st);
    FoldFitted(words, measure, maxWidth);
    FlushFitted(st, measure, maxWidth);
    Flush(st)
  }

  /** After the loop: `if current_line: lines.append(current_line)`. */
  function Flush(st: WrapState): seq<string> {
    if st.current != "" then st.lines + [st.current] else st.lines
  }

  lemma FlushFacts(st: WrapState, words: seq<string>, measure: string -> int, maxWidth: int)
    requires Invariant(st, words, measure, maxWidth)
    ensures forall i :: 0 <= i < |Flush(st)| ==> LineAllowed(Flush(st), i, words, measure, maxWidth)
    ensures LineWords(Flush(st)) == words
    ensures Flush(st) == [] <==> words == []
    ensures FirstWordTooWide(words, measure, maxWidth) <==> |Flush(st)| > 0 && Flush(st)[0] == ""
    ensures forall i :: 0 <= i < |Flush(st)| ==> Flush(st)[i] == "" || Words(Flush(st)[i]) != []
  {
    var lines := Flush(st);
    if st.current != "" {
      LineWordsAppend(st.lines, st.current);
      assert lines[|st.lines|] == st.current;
      forall i | 0 <= i < |lines|
        ensures LineAllowed(lines, i, words, measure, maxWidth)
        ensures lines[i] == "" || Words(lines[i]) != []
      {
        if i < |st.lines| {
          assert lines[i] == st.lines[i];
          assert LineAllowed(st.lines, i, words, measure, maxWidth);
        }
      }
      if |st.lines| > 0 {
        assert lines[0] == st.lines[0];
        assert LineAllowed(st.lines, 0, words, measure, maxWidth);
      }
    } else {
      assert lines == st.lines;
    }
  }

  lemma {:induction false} LineCountBound(lines: seq<string>)
    requires forall i :: 0 <= i < |lines| ==> lines[i] == "" || Words(lines[i]) != []
    requires forall i :: 0 < i < |lines| ==> lines[i] != ""
    ensures |lines| <= |LineWords(lines)| + (if |lines| > 0 && lines[0] == "" then 1 else 0)
    decreases |lines|
  {
    if |lines| > 0 {
      var init := lines[..|lines| - 1];
      assert forall i :: 0 <= i < |init| ==> init[i] == lines[i];
      LineCountBound(init);
    }
  }

  /** Lines never outnumber words, except for the one empty line emitted
      when the first word is too wide. */
  lemma WrapLineCount(text: string, measure: string -> int, maxWidth: int)
    ensures |WrapText(text, measure, maxWidth)|
      <= |Words(text)| + (if FirstWordTooWide(Words(text), measure, maxWidth) then 1 else 0)
  {
    var lines := WrapText(text, measure, maxWidth);
    forall i | 0 < i < |lines| ensures lines[i] != "" {
      assert LineAllowed(lines, i, Words(text), measure, maxWidth);
    }
    LineCountBound(lines);
  }
}
